=== FILE: README.md ===
# Spectrum SDK driver core, modelled in Dafny

This project models three pieces of the Mellanox/NVIDIA Spectrum SDK kernel
driver and proves properties of them.

- **The register item codec** (`mlxsw_item.h`). A register item names a field
  of a register buffer by offset, step, in-step offset, shift and size.
  - `GEN_MASK` and `__mlxsw_item_offset`;
  - the 8/16/32/64-bit big-endian getters and setters;
  - the byte-buffer copies;
  - the bit-array accessors.

  Words are modelled as bit strings, least significant bit first (module
  `Bits`). Buffers are sequences of bytes. The field arithmetic
  `(tmp >> shift) & mask` and `tmp & ~mask | (val << shift) & mask` is module
  `Field`. The item accessors are module `Item`, and the bit arrays are module
  `BitArray`.
- **The software reset flow** (`reset.c`). This covers:
  - the status-register poller;
  - the per-family reset strategies and the dispatch between them;
  - the save and restore of a SwitchX PCI header;
  - `sx_reset` itself, with its trigger gate and its pre/post-reset events.

  Every collaborator is a script that the caller supplies. This includes
  register reads, configuration-space accesses, the reset-register command,
  event handlers and the clock. The strategies are pure functions that return
  an error code and the trace of observable steps (modules `SystemStatus`,
  `Headers` and `Reset`).
- **Bit-packing helpers of `device.h`** (module `Device`):
  - the EMAD TLV type and length;
  - the port-identifier field macros;
  - the telemetry-threshold flag macros;
  - the bridge-identifier range.

Module `Kernel` holds the errno values and a first-match search used by the
pollers.

## Model

| member | source | states |
|---|---|---|
| Bits.GenMask | include/linux/mlx_sx/auto_registers/mlxsw_item.h:22-31 | the 64-bit mask has bit i set exactly when l <= i <= h, for every bit position |
| Bits.GenMaskValue | include/linux/mlx_sx/auto_registers/mlxsw_item.h:27-31 | GEN_MASK(h, l) is the 64-bit word of the integer 2^(h+1) - 2^l |
| Bits.GenMaskExample | include/linux/mlx_sx/auto_registers/mlxsw_item.h:22-26 | the documented example: GEN_MASK_ULL(39, 21) is 0x000000ffffe00000 |
| Bits.FromBigEndianBits | include/linux/mlx_sx/auto_registers/mlxsw_item.h:96-175 | a word read from bytes in the `be*_to_cpu` order has bit i equal to bit i mod 8 of the byte i / 8 places from the end: the first byte is the most significant |
| Bits.ToBigEndianBytes | include/linux/mlx_sx/auto_registers/mlxsw_item.h:114-175 | byte j of a word stored in the `cpu_to_be*` order holds the eight bits 8j below the top of the word |
| Item.Offset | include/linux/mlx_sx/auto_registers/mlxsw_item.h:46-60 | the entry position, counted in words of the access size, fits the 32-bit return type |
| Item.OffsetExact | include/linux/mlx_sx/auto_registers/mlxsw_item.h:46-60 | once the alignment checks pass, position times word size is exactly the entry's byte distance (offset + outer * type size + index * step + in-step offset); for byte accesses this holds while that distance stays below 2^32 |
| Item.Get | include/linux/mlx_sx/auto_registers/mlxsw_item.h:62-160 | the value read is as wide as the access and fits both the field's bit size and the room above the shift |
| Item.Set | include/linux/mlx_sx/auto_registers/mlxsw_item.h:75-176 | a set leaves every byte outside the addressed word unchanged and keeps the buffer length |
| Item.GetSet | include/linux/mlx_sx/auto_registers/mlxsw_item.h:62-176 | a get after a set returns the written value's bits below the field size that also lie inside the word, and zero elsewhere |
| Item.GetSetFits | include/linux/mlx_sx/auto_registers/mlxsw_item.h:62-176 | a value that fits the field and the word is read back exactly |
| Item.GetSetMasked | include/linux/mlx_sx/auto_registers/mlxsw_item.h:62-176 | when the field lies inside its word, a get after a set returns the value ANDed with GEN_MASK(bits - 1, 0) |
| Item.SetOnlyFieldBits | include/linux/mlx_sx/auto_registers/mlxsw_item.h:133-147 | the addressed word after a set is the old word with only the field's bits replaced (the `tmp & ~mask` / `(val << shift) & mask` splice) |
| Item.SetGet | include/linux/mlx_sx/auto_registers/mlxsw_item.h:62-176 | writing back the value just read leaves the buffer unchanged |
| Item.SetSet | include/linux/mlx_sx/auto_registers/mlxsw_item.h:75-176 | of two sets of one field only the second is visible |
| Item.GetSetOtherWord | include/linux/mlx_sx/auto_registers/mlxsw_item.h:62-176 | setting one field leaves every field stored in other bytes unchanged |
| Item.GetSetSameWord | include/linux/mlx_sx/auto_registers/mlxsw_item.h:62-176 | setting one field leaves a field of the same word with a disjoint bit range unchanged |
| Item.MemcpyFrom | include/linux/mlx_sx/auto_registers/mlxsw_item.h:178-186 | the copy out has exactly `size.bytes` bytes, and its byte k is the buffer byte at the entry's offset plus k |
| Item.MemcpyTo | include/linux/mlx_sx/auto_registers/mlxsw_item.h:188-196 | the copy in keeps the buffer length, puts byte k of the source at the entry's offset plus k, and leaves every byte outside the entry unchanged |
| Item.MemcpyFromTo | include/linux/mlx_sx/auto_registers/mlxsw_item.h:178-196 | copying out after copying in gives the bytes copied in |
| Item.MemcpyToFrom | include/linux/mlx_sx/auto_registers/mlxsw_item.h:178-196 | copying in the bytes just copied out leaves the buffer unchanged |
| BitArray.Locate | include/linux/mlx_sx/auto_registers/mlxsw_item.h:205-226 | the 16-bit byte offset and a shift that is a multiple of the element size and leaves room for a whole element |
| BitArray.LocateInRange | include/linux/mlx_sx/auto_registers/mlxsw_item.h:205-226 | elements are stored from the end of the array: element i is in byte offset + size - 1 - i / (8 / element size), at shift (i mod 8 / element size) * element size, inside the array |
| BitArray.LocateDistinct | include/linux/mlx_sx/auto_registers/mlxsw_item.h:205-226 | two different elements are in different bytes or in disjoint bit ranges of one byte |
| BitArray.Get | include/linux/mlx_sx/auto_registers/mlxsw_item.h:228-237 | the element read fits the element size |
| BitArray.Set | include/linux/mlx_sx/auto_registers/mlxsw_item.h:239-251 | a set changes at most the byte that holds the element |
| BitArray.GetSet | include/linux/mlx_sx/auto_registers/mlxsw_item.h:228-251 | a get after a set returns the written value cut to the element size |
| BitArray.GetSetFits | include/linux/mlx_sx/auto_registers/mlxsw_item.h:228-251 | a value that fits the element is read back exactly |
| BitArray.SetGet | include/linux/mlx_sx/auto_registers/mlxsw_item.h:228-251 | writing back the element just read leaves the buffer unchanged |
| BitArray.GetSetOther | include/linux/mlx_sx/auto_registers/mlxsw_item.h:228-251 | setting one element leaves every other element unchanged |
| Device.TlvType | include/linux/mlx_sx/device.h:239-243 | the TLV type is below 32 (the five bits above the length) |
| Device.TlvLen | include/linux/mlx_sx/device.h:245-248 | the TLV length in bytes is a multiple of 4 and at most 2047 dwords |
| Device.TlvDecodeEncode | include/linux/mlx_sx/device.h:239-248 | decoding a header built from a type and a dword count gives back the type and four times the count |
| Device.TlvEncodeDecode | include/linux/mlx_sx/device.h:239-248 | every `type_len` word is the encoding of its decoded type and length |
| Device.PhyId | include/linux/mlx_sx/device.h:297-300 | the physical port number is below 0x400 |
| Device.DevId | include/linux/mlx_sx/device.h:302-305 | the device number is below 0x1000 |
| Device.TypeId | include/linux/mlx_sx/device.h:307-310 | the port type is below 0x10 |
| Device.LagId | include/linux/mlx_sx/device.h:312-315 | the LAG number is below 0x400 |
| Device.PortIdFields | include/linux/mlx_sx/device.h:297-310 | each field macro returns the field an identifier was assembled from |
| Device.PortIdOfFields | include/linux/mlx_sx/device.h:297-310 | an identifier with bits 10-15 clear is exactly the assembly of its three fields |
| Device.LagSharesPhyField | include/linux/mlx_sx/device.h:297-315 | the LAG number and the physical port number read the same ten bits |
| Device.ValidSet | include/linux/mlx_sx/device.h:324 | the valid bit is set afterwards and every other bit is unchanged |
| Device.FirstEventGet | include/linux/mlx_sx/device.h:326 | the result is 0 or 1, and it is 1 exactly when bit 1 is set |
| Device.FirstEventSet | include/linux/mlx_sx/device.h:327 | the first-event flag reads 1 afterwards and every other bit is unchanged |
| Device.MaybeGet | include/linux/mlx_sx/device.h:329-330 | the result is 0 or 1, and it is 1 exactly when the "maybe" mask bit is set |
| Device.MaybeSet | include/linux/mlx_sx/device.h:329-331 | the "maybe" flag reads 1 afterwards and every other bit is unchanged |
| Device.MaybeClear | include/linux/mlx_sx/device.h:329-332 | the "maybe" flag reads 0 afterwards and every other bit is unchanged |
| Device.MaybeKeepsFirstEvent | include/linux/mlx_sx/device.h:326-332 | setting or clearing the "maybe" flag leaves the first-event flag alone |
| Device.MaybeSetClear | include/linux/mlx_sx/device.h:329-332 | clearing undoes setting on a descriptor without the flag, and setting undoes clearing on one with it |
| Device.BridgeCount | include/linux/mlx_sx/device.h:341-346 | bridge identifiers 4k to 20k - 1 number 16k |
| SystemStatus.WaitForSystemReady | drivers/net/mlx_sx/reset.c:132-172 | an unmapped register gives -ENOMEM without a read; otherwise at least one read is taken and the poll stops at the first ready reading; success exactly when some reading is ready; -ETIME only after every reading |
| SystemStatus.ZeroBudgetSingleRead | drivers/net/mlx_sx/reset.c:132-172 | with a zero budget the do-while reads exactly once and succeeds exactly when that reading is ready |
| SystemStatus.GetSystemStatus | drivers/net/mlx_sx/reset.c:368-400 | -EINVAL without a device or output, -ENOMEM when unmapped, otherwise success with the register's low byte |
| SystemStatus.StatusAgreesWithPoller | drivers/net/mlx_sx/reset.c:368-400 | the reported status is the "enabled" value exactly when the poller would call the reading ready |
| Headers.SaveHeaders | drivers/net/mlx_sx/reset.c:270-296 | success exactly when every dword except 22 and 23 reads without error; on failure -ENODEV at the first failing dword; the buffer holds the values read below where it stopped and zero elsewhere; a complete save leaves exactly `SavedHeader` |
| Headers.SavedHeader | drivers/net/mlx_sx/reset.c:270-296 | the buffer a complete save leaves: every dword holds the value read from it, and dwords 22 and 23 are zero |
| Headers.RestorePlan | drivers/net/mlx_sx/reset.c:308-359 | the control words come first when the capability is present; every dword 0-15 is written back from the buffer; the command register is written last and only there |
| Headers.RestoredBelowOrder | drivers/net/mlx_sx/reset.c:338-347 | the k-th write of the restore loop below dword n writes dword 0 for k = 0 and dword k + 1 after that, from the buffer, skipping the command register |
| Headers.RestorePlanBulk | drivers/net/mlx_sx/reset.c:338-347 | after the control words, the k-th write of the plan is the loop's write of dword 0, then 2, 3, ..., 15 |
| Headers.RestorePlanAscending | drivers/net/mlx_sx/reset.c:338-347 | between the control words and the command register, the writes go to strictly increasing offsets, so a restore stopped at a write has written exactly the lower dwords |
| Headers.RestoreHeaders | drivers/net/mlx_sx/reset.c:308-359 | the writes done are a prefix of the plan in order; success exactly when every write succeeds; otherwise -ENODEV, stopping at the first failing write |
| Headers.SaveRestoreRoundTrip | drivers/net/mlx_sx/reset.c:270-359 | after a successful save, each of dwords 0-15 is written back with the value read from it |
| Headers.ControlWordSource | drivers/net/mlx_sx/reset.c:308-359 | the control words restored are the low halves of the saved dwords that hold them, or zero when they fall in the unsaved dwords 22-23 |
| Reset.ChipResetDuration | drivers/net/mlx_sx/reset.c:175-207 | the wait is between 5 seconds and 25 minutes, and exactly 20 minutes on the palladium Quantum3 build |
| Reset.LegacyBudget | drivers/net/mlx_sx/reset.c:496-500 | the u32 doubling of the duration does not wrap: it is exactly twice the duration |
| Reset.PrimaryReset | drivers/net/mlx_sx/reset.c:210-259 | success exactly when ready before, the reset command succeeds, the system stops reporting ready at once, and is ready again after; the error of each failure point, including the error of the final wait; the flag is raised before the chip is hit and lowered on return |
| Reset.DoLegacyReset | drivers/net/mlx_sx/reset.c:403-438 | -ENOMEM with no step when the reset register cannot be mapped; otherwise one hit with the build's settle time |
| Reset.LegacyReset | drivers/net/mlx_sx/reset.c:482-532 | -ENODEV without a PCI device; success exactly when ready before, mapped, and ready after; the error of the first wait when it fails (before any hit), -ENOMEM when unmapped, otherwise the error of the second wait after the hit; every wait uses twice the chip duration; flag discipline |
| Reset.VendorPoll | drivers/net/mlx_sx/reset.c:441-479 | the vendor poll stops at the first read that answers, and sees a vendor other than 0xffff whenever some read answers |
| Reset.VendorPollSeesAnswer | drivers/net/mlx_sx/reset.c:461-471 | when failed reads leave 0xffff, the poll sees a vendor exactly when some read answers |
| Reset.LegacyResetSwitchX | drivers/net/mlx_sx/reset.c:441-479 | -ENODEV without a device, -ENOMEM when unmapped, otherwise success exactly when the vendor poll sees the device; the flag is never touched |
| Reset.PerformDevSwReset | drivers/net/mlx_sx/reset.c:53-100 | a SwitchX gets its own reset; unsupported devices get -ENODEV; other families try the reset register and fall back to the legacy reset only when it fails, returning 0 or the legacy reset's error; success exactly when the strategy that decides succeeds |
| Reset.DispatchFlowLowered | drivers/net/mlx_sx/reset.c:53-100 | whatever strategies ran, the reset-in-progress flag is lowered when the dispatch returns |
| Reset.TriggerGate | drivers/net/mlx_sx/reset.c:576-593 | after the gate the trigger is set; an already-set trigger is kept; a trigger set during the wait is kept; with neither, the flow triggers itself with 1 |
| Reset.TriggerGateIdempotent | drivers/net/mlx_sx/reset.c:576-593 | passing the gate a second time changes nothing |
| Reset.ResetPhase | drivers/net/mlx_sx/reset.c:595-638 | success exactly when the PRE_RESET result, the dispatch and the vendor poll all succeed (with a chip reset) or the system is ready or boot-flow tracing is on (without); otherwise the error of the first failing step, -ENODEV for the vendor poll and the readiness check |
| Reset.SxReset | drivers/net/mlx_sx/reset.c:535-668 | the early errors, including -ENODEV from a failed header save; the pre- and post-reset events are sent as a pair exactly when the flow gets past its allocations and a chip reset is asked for; the flow's error (carried by POST_RESET when sent) is 0 exactly when the flow is prepared, the reset phase succeeds and, on a SwitchX, every restore write succeeds; the error of each failing step; on a SwitchX that reaches the restore, the writes are a nonempty prefix of the restore plan of the saved header, the whole plan when every write succeeds, and otherwise ending at the first write that failed; the returned error is the handler-rewritten POST_RESET error |

## Left out

- Clocks, `jiffies`, `msleep` and deadlines are not modelled. Each poll is a
  finite script of readings. The poll's budget only decides whether a
  zero-length wait still reads once.
- The reset-trigger wait loop is reduced to the trigger value seen after it.
- `reset_dev_by_mrsr_reg` (reset.c:102-130) fills an MRSR register TLV and
  sends it. Only its return value is modelled, as the script's `mrsr` code.
- `kmalloc`/`kfree`, `printk` and `sx_err` are not modelled. An allocation is
  a boolean of the environment.
- The return value of the POST_RESET event dispatch is only logged by the
  source, and the model ignores it too. A POST_RESET handler may rewrite the
  event's error field, which `sx_reset` then returns. The environment's
  `postRewrite` is that rewritten value, if any; the handlers themselves are
  not modelled. `sx_cmd_use_polling` is not modelled.
- The `MLXSW_ITEM*` declaration macros and `__mlxsw_item_data` are not
  modelled. The header's remaining declarations (its many register layouts)
  are not part of this model.
- `sx_bfd_ctrl_cmds.h` is not part of this model.
- The errno values (ENOMEM 12, EFAULT 14, ENODEV 19, EINVAL 22, ETIME 62) and
  the PCI constants (PCI_COMMAND 4, PCI_EXP_DEVCTL 8, PCI_EXP_LNKCTL 16) are
  the Linux values. They are not defined in the modelled files.
- A 64-bit platform is assumed (BITS_PER_LONG is 64), so GEN_MASK and
  GEN_MASK_ULL are the same mask.
- `BUG_ON` checks and shifts that C leaves undefined are preconditions, not
  error paths:
  - alignment of offset, step and in-step offset;
  - a zero step with a nonzero index;
  - a bit size of 1..64;
  - a shift below the promoted width.
- BitArray.LocateInRange: the position formulas are proved only for arrays
  whose element count and end fit 16 bits. Beyond that `max_index` and the
  result wrap modulo 2^16 in the source, and the model computes that wrap
  but states nothing about it.
- Item.SetOnlyFieldBits: stated as "the new word is the old word with the
  field spliced in", not as a separate statement per bit.
- Reset.ChipResetDuration: the contract states bounds and the palladium
  case, not the per-family value.
- Headers.RestorePlan and Headers.RestoreHeaders require the PCI Express
  capability to start below 0xF0 (`pcieCap + 16 < 256`). A capability at
  0xF0-0xFC would make the source index past the 256-byte header buffer
  (reset.c:320,328), which C leaves undefined.
- Device.TlvType and Device.TlvLen take the type/length word already in
  host order. The `be16_to_cpu` conversion (device.h:242,247) is not
  modelled.
- Reset.VendorPoll: a failed configuration read does not end the SwitchX
  poll, but when it is the last read before the window closes, the value it
  left decides the outcome. A failed last read that leaves a value other
  than 0xffff therefore counts as success in the source. The model keeps
  that behaviour, and VendorPollSeesAnswer states the iff only for reads
  that leave 0xffff on failure.

=== FILE: bitarray.dfy ===
/** Bit-array items: a run of bytes holding equal-sized elements of 1, 2, 4
    or 8 bits, numbered from the least significant end of the last byte.

    `Locate` computes where element `index` lives, following the 16-bit and
    8-bit arithmetic of `__mlxsw_item_bit_array_offset`; `Get` and `Set` then
    read or write the element with the same shift-and-mask code as a one-byte
    scalar field. */
module BitArray {
  import opened Bits
  import opened Field
  import opened Item

  /** A byte of the buffer and a bit shift inside it. */
  datatype Position = Position(byte: nat, shift: nat)

  /** What `__mlxsw_item_bit_array_offset` checks before it computes: the
      array starts on a 4-byte boundary and the element size divides a byte
      (it must be nonzero for that test to be defined at all).  The item's
      size is a byte count. */
  predicate ArrayItem(item: ItemDesc)
  {
    && item.size.InBytes?
    && item.offset % 4 == 0
    && item.elementSize in {1, 2, 4, 8}
  }

  /** Elements per byte. */
  function PerByte(item: ItemDesc): nat
    requires ArrayItem(item)
  {
    8 / item.elementSize
  }

  /** `__mlxsw_item_bit_array_offset`.  `max_index`, `be_index` and the
      result are `u16` and wrap modulo 2^16; `in_byte_index` and the shift
      are below 8.  The shift always leaves room for a whole element in the
      byte. */
  function Locate(item: ItemDesc, index: u16): (p: Position)
    requires ArrayItem(item)
    ensures p.byte < 0x1_0000
    ensures p.shift % item.elementSize == 0 && p.shift + item.elementSize <= 8
  {
    LocateIn(item.offset, item.size.bytes, item.elementSize, index)
  }

  /** The arithmetic of `Locate` on the item's numbers, taken one element
      size at a time so that every division is by a constant. */
  function LocateIn(offset: nat, bytes: nat, es: nat, index: nat): (p: Position)
    requires es in {1, 2, 4, 8}
    ensures p.byte < 0x1_0000
    ensures p.shift % es == 0 && p.shift + es <= 8
  {
    if es == 1 then Slot(offset, bytes, 1, index)
    else if es == 2 then Slot(offset, bytes, 2, index)
    else if es == 4 then Slot(offset, bytes, 4, index)
    else Slot(offset, bytes, 8, index)
  }

  /** `max_index`, `be_index`, the byte offset and the shift, for one element
      size. */
  function Slot(offset: nat, bytes: nat, es: nat, index: nat): (p: Position)
    requires es in {1, 2, 4, 8}
    ensures p.byte < 0x1_0000
    ensures p.shift % es == 0 && p.shift + es <= 8
  {
    var maxIndex := ((bytes * 8) / es - 1) % 0x1_0000;
    var beIndex := (maxIndex - index) % 0x1_0000;
    var inByteIndex := index % (8 / es);
    ShiftRoom(es, inByteIndex);
    Position((offset + (beIndex * es) / 8) % 0x1_0000, inByteIndex * es)
  }

  lemma ShiftRoom(es: nat, k: nat)
    requires es in {1, 2, 4, 8} && k < 8 / es
    ensures (k * es) % es == 0 && k * es + es <= 8
  {
  }

  /** An index that names an element of the array, for an array whose
      element count and end both fit the 16-bit arithmetic. */
  predicate InRange(item: ItemDesc, index: u16)
    requires ArrayItem(item)
  {
    && item.size.bytes * PerByte(item) <= 0x1_0000
    && item.offset + item.size.bytes <= 0x1_0000
    && index < item.size.bytes * PerByte(item)
  }

  /** Elements are stored from the end of the array: element `index` is in
      byte `size - 1 - index / (elements per byte)` of the array, at shift
      `(index mod elements per byte) * element size`. */
  lemma LocateInRange(item: ItemDesc, index: u16)
    requires ArrayItem(item) && InRange(item, index)
    ensures var p := Locate(item, index);
            && p.byte == item.offset + item.size.bytes - 1 - index / PerByte(item)
            && p.shift == (index % PerByte(item)) * item.elementSize
            && item.offset <= p.byte < item.offset + item.size.bytes
  {
    var off, bytes, es := item.offset, item.size.bytes, item.elementSize;
    if es == 1 {
      Locate1(off, bytes, index);
    } else if es == 2 {
      Locate2(off, bytes, index);
    } else if es == 4 {
      Locate4(off, bytes, index);
    } else {
      Locate8(off, bytes, index);
    }
  }

  lemma Locate1(off: nat, bytes: nat, index: nat)
    requires bytes * 8 <= 0x1_0000 && off + bytes <= 0x1_0000 && index < bytes * 8
    ensures LocateIn(off, bytes, 1, index) == Position(off + bytes - 1 - index / 8, (index % 8) * 1)
  {
    var q, r := index / 8, index % 8;
    assert index == 8 * q + r;
    assert (bytes * 8) / 1 == bytes * 8;
    var be := bytes * 8 - 1 - index;
    assert (bytes * 8 - 1) % 0x1_0000 == bytes * 8 - 1;
    assert (bytes * 8 - 1 - index) % 0x1_0000 == be;
    assert be * 1 == 8 * (bytes - 1 - q) + (7 - 1 * r);
    DivBy8(bytes - 1 - q, 7 - 1 * r);
    assert (off + (be * 1) / 8) % 0x1_0000 == off + bytes - 1 - q;
  }

  lemma Locate2(off: nat, bytes: nat, index: nat)
    requires bytes * 4 <= 0x1_0000 && off + bytes <= 0x1_0000 && index < bytes * 4
    ensures LocateIn(off, bytes, 2, index) == Position(off + bytes - 1 - index / 4, (index % 4) * 2)
  {
    var q, r := index / 4, index % 4;
    assert index == 4 * q + r;
    assert (bytes * 8) / 2 == bytes * 4;
    var be := bytes * 4 - 1 - index;
    assert (bytes * 4 - 1) % 0x1_0000 == bytes * 4 - 1;
    assert (bytes * 4 - 1 - index) % 0x1_0000 == be;
    assert be * 2 == 8 * (bytes - 1 - q) + (6 - 2 * r);
    DivBy8(bytes - 1 - q, 6 - 2 * r);
    assert (off + (be * 2) / 8) % 0x1_0000 == off + bytes - 1 - q;
  }

  lemma Locate4(off: nat, bytes: nat, index: nat)
    requires bytes * 2 <= 0x1_0000 && off + bytes <= 0x1_0000 && index < bytes * 2
    ensures LocateIn(off, bytes, 4, index) == Position(off + bytes - 1 - index / 2, (index % 2) * 4)
  {
    var q, r := index / 2, index % 2;
    assert index == 2 * q + r;
    assert (bytes * 8) / 4 == bytes * 2;
    var be := bytes * 2 - 1 - index;
    assert (bytes * 2 - 1) % 0x1_0000 == bytes * 2 - 1;
    assert (bytes * 2 - 1 - index) % 0x1_0000 == be;
    assert be * 4 == 8 * (bytes - 1 - q) + (4 - 4 * r);
    DivBy8(bytes - 1 - q, 4 - 4 * r);
    assert (off + (be * 4) / 8) % 0x1_0000 == off + bytes - 1 - q;
  }

  lemma Locate8(off: nat, bytes: nat, index: nat)
    requires bytes <= 0x1_0000 && off + bytes <= 0x1_0000 && index < bytes
    ensures LocateIn(off, bytes, 8, index) == Position(off + bytes - 1 - index, 0)
  {
    var be := bytes - 1 - index;
    assert (bytes - 1) % 0x1_0000 == bytes - 1;
    assert (bytes - 1 - index) % 0x1_0000 == be;
    DivBy8(be, 0);
    assert (off + (be * 8) / 8) % 0x1_0000 == off + be;
  }

  lemma DivBy8(q: nat, r: nat)
    requires r < 8
    ensures (8 * q + r) / 8 == q
  {
  }

  /** Two different elements never share bits: they sit in different bytes,
      or in disjoint bit ranges of one byte. */
  lemma LocateDistinct(item: ItemDesc, i: u16, j: u16)
    requires ArrayItem(item) && InRange(item, i) && InRange(item, j) && i != j
    ensures var p, p' := Locate(item, i), Locate(item, j);
            || p.byte != p'.byte
            || p.shift + item.elementSize <= p'.shift
            || p'.shift + item.elementSize <= p.shift
  {
    LocateInRange(item, i);
    LocateInRange(item, j);
    var epb, es := PerByte(item), item.elementSize;
    if i / epb == j / epb {
      DivModDistinct(i, j, es);
      DistinctSlots(es, i % epb, j % epb);
    }
  }

  lemma DivModDistinct(i: nat, j: nat, es: nat)
    requires es in {1, 2, 4, 8} && i != j && i / (8 / es) == j / (8 / es)
    ensures i % (8 / es) != j % (8 / es)
  {
  }

  lemma DistinctSlots(es: nat, a: nat, b: nat)
    requires es >= 1 && a != b
    ensures a * es + es <= b * es || b * es + es <= a * es
  {
    if a < b {
      assert (a + 1) * es <= b * es;
    } else {
      assert (b + 1) * es <= a * es;
    }
  }

  /** The demands of the accessors: a well-formed array item whose addressed
      byte lies inside the buffer. */
  predicate Accessible(buf: seq<u8>, item: ItemDesc, index: u16)
  {
    ArrayItem(item) && Locate(item, index).byte < |buf|
  }

  /** `__mlxsw_item_bit_array_get`: element `index`, as a byte whose bits
      above the element size are clear. */
  function Get(buf: seq<u8>, item: ItemDesc, index: u16): (v: Word)
    requires Accessible(buf, item, index)
    ensures |v| == 8 && Fits(v, item.elementSize)
  {
    var p := Locate(item, index);
    ExtractBound(ByteBits(buf[p.byte]), p.shift, item.elementSize);
    Extract(ByteBits(buf[p.byte]), p.shift, item.elementSize)
  }

  /** `__mlxsw_item_bit_array_set`: the buffer with element `index` replaced by
      the low bits of `val`.  Only the element's byte can change. */
  function Set(buf: seq<u8>, item: ItemDesc, index: u16, val: Word): (r: seq<u8>)
    requires Accessible(buf, item, index) && |val| == 8
    ensures |r| == |buf|
    ensures forall j :: 0 <= j < |buf| && j != Locate(item, index).byte ==> r[j] == buf[j]
  {
    var p := Locate(item, index);
    buf[p.byte := BitsByte(Insert(ByteBits(buf[p.byte]), p.shift, item.elementSize, val))]
  }

  /** Reading an element just written gives back the written value, cut to
      the element size. */
  lemma GetSet(buf: seq<u8>, item: ItemDesc, index: u16, val: Word)
    requires Accessible(buf, item, index) && |val| == 8
    ensures var v := Get(Set(buf, item, index, val), item, index);
            forall i :: 0 <= i < 8 ==> (v[i] <==> i < item.elementSize && val[i])
  {
    var p := Locate(item, index);
    var x := Insert(ByteBits(buf[p.byte]), p.shift, item.elementSize, val);
    BitsByteRoundTrip(x);
    ExtractInsert(ByteBits(buf[p.byte]), p.shift, item.elementSize, val);
  }

  /** A value that fits the element is read back exactly. */
  lemma GetSetFits(buf: seq<u8>, item: ItemDesc, index: u16, val: Word)
    requires Accessible(buf, item, index) && |val| == 8 && Fits(val, item.elementSize)
    ensures Get(Set(buf, item, index, val), item, index) == val
  {
    GetSet(buf, item, index, val);
  }

  /** Writing back the element just read leaves the buffer unchanged. */
  lemma SetGet(buf: seq<u8>, item: ItemDesc, index: u16)
    requires Accessible(buf, item, index)
    ensures Set(buf, item, index, Get(buf, item, index)) == buf
  {
    var p := Locate(item, index);
    InsertExtract(ByteBits(buf[p.byte]), p.shift, item.elementSize);
    ByteBitsRoundTrip(buf[p.byte]);
  }

  /** Writing one element leaves every other element unchanged. */
  lemma GetSetOther(buf: seq<u8>, item: ItemDesc, index: u16, val: Word, other: u16)
    requires Accessible(buf, item, index) && |val| == 8
    requires Accessible(buf, item, other)
    requires InRange(item, index) && InRange(item, other) && index != other
    ensures Get(Set(buf, item, index, val), item, other) == Get(buf, item, other)
  {
    var p, q := Locate(item, index), Locate(item, other);
    LocateDistinct(item, index, other);
    if p.byte == q.byte {
      SameByteOther(buf[p.byte], p.shift, q.shift, item.elementSize, val);
    }
  }

  /** Inside one byte, writing the element at one shift leaves the element at
      a disjoint shift unchanged. */
  lemma SameByteOther(b: u8, s1: nat, s2: nat, es: nat, val: Word)
    requires 1 <= es <= 8 && s1 < 8 && |val| == 8
    requires s1 + es <= s2 || s2 + es <= s1
    ensures Extract(ByteBits(BitsByte(Insert(ByteBits(b), s1, es, val))), s2, es)
            == Extract(ByteBits(b), s2, es)
  {
    var x := Insert(ByteBits(b), s1, es, val);
    BitsByteRoundTrip(x);
    ExtractInsertDisjoint(ByteBits(b), s1, es, val, s2, es);
  }
}

=== FILE: bits.dfy ===
/** Unsigned machine words as bit strings, and the C operators the register
    codec applies to them.

    A word of width `n` is the sequence of its `n` bits, least significant
    first, so that `x[i]` is bit `i`.  The operators are the ones C defines on
    unsigned integers of that width: `>>` and `<<` fill with zeros and drop
    the bits shifted out, `&`, `|` and `~` act bit by bit, and a conversion to
    a narrower type keeps the low bits.  A buffer is a sequence of byte
    values (`u8`); a big-endian word is read from and written to it by
    `FromBigEndian` and `ToBigEndian`.

    The model assumes a 64-bit kernel: `unsigned long` and `unsigned long long`
    are both 64 bits wide, so GEN_MASK and GEN_MASK_ULL are one function. */
module Bits {

  type Word = seq<bool>

  /** 2 to the power `k`. */
  function Pow2(k: nat): (r: nat)
    ensures r >= 1
  {
    if k == 0 then 1 else 2 * Pow2(k - 1)
  }

  /** The `w`-bit unsigned value of the integer `n`, that is `n` modulo 2^w,
      as its binary digits. */
  function FromNat(n: nat, w: nat): (x: Word)
    ensures |x| == w
  {
    if w == 0 then [] else [n % 2 == 1] + FromNat(n / 2, w - 1)
  }

  /** `0` of width `w`. */
  function Zeros(w: nat): (x: Word)
    ensures |x| == w
    ensures forall i :: 0 <= i < w ==> !x[i]
  {
    seq(w, i => false)
  }

  /** `~x`. */
  function Not(x: Word): (r: Word)
    ensures |r| == |x|
    ensures forall i :: 0 <= i < |x| ==> r[i] == !x[i]
  {
    seq(|x|, i requires 0 <= i < |x| => !x[i])
  }

  /** `x & y` for two words of one width. */
  function And(x: Word, y: Word): (r: Word)
    requires |x| == |y|
    ensures |r| == |x|
    ensures forall i :: 0 <= i < |x| ==> r[i] == (x[i] && y[i])
  {
    seq(|x|, i requires 0 <= i < |x| => x[i] && y[i])
  }

  /** `x | y` for two words of one width. */
  function Or(x: Word, y: Word): (r: Word)
    requires |x| == |y|
    ensures |r| == |x|
    ensures forall i :: 0 <= i < |x| ==> r[i] == (x[i] || y[i])
  {
    seq(|x|, i requires 0 <= i < |x| => x[i] || y[i])
  }

  /** `x >> s` on an unsigned word: bit `i` of the result is bit `i + s` of
      `x`, and zero where that falls off the top. */
  function Shr(x: Word, s: nat): (r: Word)
    ensures |r| == |x|
    ensures forall i :: 0 <= i < |x| ==> r[i] == (i + s < |x| && x[i + s])
  {
    seq(|x|, i requires 0 <= i < |x| => i + s < |x| && x[i + s])
  }

  /** `x << s` on an unsigned word: bit `i` of the result is bit `i - s` of
      `x`, and zero below `s`. */
  function Shl(x: Word, s: nat): (r: Word)
    ensures |r| == |x|
    ensures forall i :: 0 <= i < |x| ==> r[i] == (i >= s && x[i - s])
  {
    seq(|x|, i requires 0 <= i < |x| => i >= s && x[i - s])
  }

  /** Conversion of an unsigned word to another unsigned type of width `w`:
      the low bits are kept and any new high bits are zero. */
  function Resize(x: Word, w: nat): (r: Word)
    ensures |r| == w
    ensures forall i :: 0 <= i < w ==> r[i] == (i < |x| && x[i])
  {
    seq(w, i requires 0 <= i < w => i < |x| && x[i])
  }

  /** GEN_MASK(h, l) on a 64-bit `unsigned long`, computed as the macro does:
      `((~0UL) - (1UL << l) + 1) & (~0UL >> (BITS_PER_LONG - 1 - h))`.
      The arithmetic half is the integer (2^64 - 1) - 2^l + 1 taken as a
      64-bit word; the other half is `~0UL` shifted right. */
  function GenMask(h: nat, l: nat): (m: Word)
    requires h < 64 && l < 64
    ensures |m| == 64
    ensures forall i :: 0 <= i < 64 ==> (m[i] <==> l <= i <= h)
  {
    GenMaskOf(64, h, l)
  }

  /** GEN_MASK(h, l) is the 64-bit word of the integer 2^(h+1) - 2^l. */
  lemma GenMaskValue(h: nat, l: nat, n: nat)
    requires l <= h < 64 && n + Pow2(l) == Pow2(h + 1)
    ensures GenMask(h, l) == FromNat(n, 64)
  {
    Band(64, l, h + 1 - l, n);
    SameBits(GenMask(h, l), FromNat(n, 64));
  }

  lemma SameBits(x: Word, y: Word)
    requires |x| == |y| && forall i :: 0 <= i < |x| ==> x[i] == y[i]
    ensures x == y
  {
  }

  /** The example the header documents: GEN_MASK_ULL(39, 21) is
      0x000000ffffe00000. */
  lemma GenMaskExample()
    ensures GenMask(39, 21) == FromNat(0x0000_00ff_ffe0_0000, 64)
  {
    Pow2Example();
    GenMaskValue(39, 21, 0x0000_00ff_ffe0_0000);
  }

  /** 0x000000ffffe00000 is 2^40 - 2^21. */
  lemma Pow2Example()
    ensures 0x0000_00ff_ffe0_0000 + Pow2(21) == Pow2(40)
  {
    assert Pow2(10) == 1024;
    Pow2Sum(10, 10);
    Pow2Sum(20, 1);
    Pow2Sum(20, 20);
  }

  lemma {:induction false} Pow2Sum(a: nat, b: nat)
    ensures Pow2(a + b) == Pow2(a) * Pow2(b)
  {
    if a > 0 {
      Pow2Sum(a - 1, b);
      assert Pow2(a + b) == 2 * (Pow2(a - 1) * Pow2(b));
    }
  }

  /** The bits of the `w`-bit word 2^(l+k) - 2^l are those from `l` to
      `l + k - 1`. */
  lemma {:induction false} Band(w: nat, l: nat, k: nat, n: nat)
    requires n + Pow2(l) == Pow2(l + k)
    ensures forall i :: 0 <= i < w ==> (FromNat(n, w)[i] <==> l <= i < l + k)
  {
    if w > 0 {
      if l > 0 {
        assert n / 2 + Pow2(l - 1) == Pow2(l - 1 + k) && n % 2 == 0;
        Band(w - 1, l - 1, k, n / 2);
      } else if k > 0 {
        assert n / 2 + Pow2(0) == Pow2(k - 1) && n % 2 == 1;
        Band(w - 1, 0, k - 1, n / 2);
      } else {
        Band(w - 1, 0, 0, n / 2);
      }
      assert forall i :: 1 <= i < w ==> FromNat(n, w)[i] == FromNat(n / 2, w - 1)[i - 1];
    }
  }

  /** The macro on a word of `w` bits. */
  function GenMaskOf(w: nat, h: nat, l: nat): (m: Word)
    requires h < w && l < w
    ensures |m| == w
    ensures forall i :: 0 <= i < w ==> (m[i] <==> l <= i <= h)
  {
    Pow2Monotone(l, w);
    var low := FromNat((Pow2(w) - 1) - Pow2(l) + 1, w);
    var high := Shr(Not(Zeros(w)), w - 1 - h);
    HighBits(w, l, (Pow2(w) - 1) - Pow2(l) + 1);
    And(low, high)
  }

  /** The bits of the `w`-bit word 2^w - 2^l are exactly those from `l`
      upward. */
  lemma {:induction false} HighBits(w: nat, l: nat, n: nat)
    requires l < w && n == Pow2(w) - Pow2(l)
    ensures forall i :: 0 <= i < w ==> (FromNat(n, w)[i] <==> l <= i)
  {
    var x := FromNat(n, w);
    if l == 0 {
      AllOnes(w, n);
    } else {
      Pow2Monotone(l - 1, w - 1);
      var half := Pow2(w - 1) - Pow2(l - 1);
      HighBits(w - 1, l - 1, half);
      assert n == 2 * half;
      assert n % 2 == 0 && n / 2 == half;
      var rest := FromNat(half, w - 1);
      assert x == [false] + rest;
      forall i | 0 <= i < w
        ensures x[i] <==> l <= i
      {
        if i > 0 {
          assert x[i] == rest[i - 1];
        }
      }
    }
  }

  /** The `w`-bit word 2^w - 1 has every bit set. */
  lemma {:induction false} AllOnes(w: nat, n: nat)
    requires n == Pow2(w) - 1
    ensures forall i :: 0 <= i < w ==> FromNat(n, w)[i]
  {
    if w > 0 {
      var half := Pow2(w - 1) - 1;
      AllOnes(w - 1, half);
      assert n == 2 * half + 1;
      assert n % 2 == 1 && n / 2 == half;
      var x := FromNat(n, w);
      var rest := FromNat(half, w - 1);
      assert x == [true] + rest;
      forall i | 0 < i < w
        ensures x[i]
      {
        assert x[i] == rest[i - 1];
      }
    }
  }

  lemma {:induction false} Pow2Monotone(a: nat, b: nat)
    requires a <= b
    ensures Pow2(a) <= Pow2(b)
  {
    if a < b {
      Pow2Monotone(a, b - 1);
    }
  }

  /** The unsigned value of a word: the inverse of `FromNat` on values below
      2^|x|. */
  function ToNat(x: Word): (n: nat)
    ensures n < Pow2(|x|)
  {
    if x == [] then 0 else (if x[0] then 1 else 0) + 2 * ToNat(x[1..])
  }

  /** Taking a word's value and converting it back to the word's width gives
      the word. */
  lemma {:induction false} FromToNat(x: Word)
    ensures FromNat(ToNat(x), |x|) == x
  {
    if x != [] {
      var n := ToNat(x);
      var t := ToNat(x[1..]);
      FromToNat(x[1..]);
      assert n % 2 == 1 <==> x[0];
      assert n / 2 == t;
      assert x == [x[0]] + x[1..];
    }
  }

  /** A value that fits in `w` bits survives the trip through its word. */
  lemma {:induction false} ToFromNat(n: nat, w: nat)
    requires n < Pow2(w)
    ensures ToNat(FromNat(n, w)) == n
  {
    if w > 0 {
      var x := FromNat(n, w);
      ToFromNat(n / 2, w - 1);
      assert x[1..] == FromNat(n / 2, w - 1);
    }
  }

  /** Every bit of `x` from position `k` upward is clear. */
  predicate Fits(x: Word, k: nat)
  {
    forall i :: k <= i < |x| ==> !x[i]
  }

  /** A word's bits from `k` upward are clear exactly when its value is below
      2^k. */
  lemma {:induction false} FitsValue(x: Word, k: nat)
    ensures Fits(x, k) <==> ToNat(x) < Pow2(k)
  {
    if x == [] {
    } else if k == 0 {
      if ToNat(x) == 0 {
        ZeroValue(x);
      } else {
        assert !Fits(x, 0) by {
          var j := SetBit(x);
          assert x[j];
        }
      }
    } else {
      FitsValue(x[1..], k - 1);
      assert Fits(x, k) <==> Fits(x[1..], k - 1) by {
        if Fits(x[1..], k - 1) {
          forall i | k <= i < |x|
            ensures !x[i]
          {
            assert x[i] == x[1..][i - 1];
          }
        }
        if Fits(x, k) {
          forall i | k - 1 <= i < |x[1..]|
            ensures !x[1..][i]
          {
            assert x[1..][i] == x[i + 1];
          }
        }
      }
    }
  }

  /** A word of value zero has no bit set. */
  lemma {:induction false} ZeroValue(x: Word)
    requires ToNat(x) == 0
    ensures Fits(x, 0)
  {
    if x != [] {
      ZeroValue(x[1..]);
      forall i | 1 <= i < |x|
        ensures !x[i]
      {
        assert x[i] == x[1..][i - 1];
      }
    }
  }

  /** The position of some set bit of a word with a nonzero value. */
  lemma {:induction false} SetBit(x: Word) returns (j: nat)
    requires ToNat(x) != 0
    ensures j < |x| && x[j]
  {
    if x[0] {
      j := 0;
    } else {
      j := SetBit(x[1..]);
      j := j + 1;
    }
  }

  /** The kernel's fixed-width unsigned integer types, as integer ranges. */
  type u8 = n: int | 0 <= n < 0x100
  type u16 = n: int | 0 <= n < 0x1_0000

  /** The eight bits of a byte, least significant first. */
  function ByteBits(b: u8): (x: Word)
    ensures |x| == 8
  {
    FromNat(b, 8)
  }

  /** The byte whose bits, least significant first, are `x`. */
  function BitsByte(x: Word): u8
    requires |x| == 8
  {
    assert Pow2(8) == 256;
    ToNat(x)
  }

  lemma ByteBitsRoundTrip(b: u8)
    ensures BitsByte(ByteBits(b)) == b
  {
    assert Pow2(8) == 256;
    ToFromNat(b, 8);
  }

  lemma BitsByteRoundTrip(x: Word)
    requires |x| == 8
    ensures ByteBits(BitsByte(x)) == x
  {
    FromToNat(x);
  }

  /** be16_to_cpu, be32_to_cpu, be64_to_cpu (and a plain byte for one-byte
      words): the word stored most significant byte first in `bs`.  The first
      byte supplies the top eight bits. */
  function FromBigEndian(bs: seq<u8>): (x: Word)
    ensures |x| == 8 * |bs|
  {
    if bs == [] then [] else FromBigEndian(bs[1..]) + ByteBits(bs[0])
  }

  /** cpu_to_be16, cpu_to_be32, cpu_to_be64: the bytes of a word, most
      significant first. */
  function ToBigEndian(x: Word): (bs: seq<u8>)
    requires |x| % 8 == 0
    ensures |bs| == |x| / 8
  {
    if |x| == 0 then [] else [BitsByte(x[|x| - 8..])] + ToBigEndian(x[..|x| - 8])
  }

  /** The byte order of FromBigEndian: bit `i` of the word is bit `i % 8` of
      the byte `i / 8` places from the end, so the last byte is the least
      significant and the first the most significant. */
  lemma {:induction false} FromBigEndianBits(bs: seq<u8>)
    ensures forall i :: 0 <= i < 8 * |bs| ==> FromBigEndian(bs)[i] == ByteBits(bs[|bs| - 1 - i / 8])[i % 8]
  {
    if bs != [] {
      FromBigEndianBits(bs[1..]);
      var x := FromBigEndian(bs);
      assert x == FromBigEndian(bs[1..]) + ByteBits(bs[0]);
      forall i | 0 <= i < 8 * |bs|
        ensures x[i] == ByteBits(bs[|bs| - 1 - i / 8])[i % 8]
      {
        if i < 8 * (|bs| - 1) {
          assert bs[1..][|bs| - 2 - i / 8] == bs[|bs| - 1 - i / 8];
        } else {
          assert i / 8 == |bs| - 1 && i % 8 == i - 8 * (|bs| - 1);
        }
      }
    }
  }

  /** The byte order of ToBigEndian: byte `j` holds the eight bits that lie
      `8 * j` bits below the top of the word. */
  lemma {:induction false} ToBigEndianBytes(x: Word)
    requires |x| % 8 == 0
    ensures forall j :: 0 <= j < |x| / 8 ==> ToBigEndian(x)[j] == BitsByte(x[|x| - 8 * j - 8 .. |x| - 8 * j])
  {
    if |x| > 0 {
      var rest := x[..|x| - 8];
      ToBigEndianBytes(rest);
      var bs := ToBigEndian(x);
      assert bs == [BitsByte(x[|x| - 8..])] + ToBigEndian(rest);
      forall j | 0 <= j < |x| / 8
        ensures bs[j] == BitsByte(x[|x| - 8 * j - 8 .. |x| - 8 * j])
      {
        if j > 0 {
          assert bs[j] == ToBigEndian(rest)[j - 1];
          assert rest[|rest| - 8 * (j - 1) - 8 .. |rest| - 8 * (j - 1)] == x[|x| - 8 * j - 8 .. |x| - 8 * j];
        } else {
          assert x[|x| - 8 .. |x|] == x[|x| - 8..];
        }
      }
    }
  }

  /** Reading back the bytes of a word gives the word. */
  lemma {:induction false} FromToBigEndian(x: Word)
    requires |x| % 8 == 0
    ensures FromBigEndian(ToBigEndian(x)) == x
  {
    if |x| > 0 {
      var top, rest := x[|x| - 8..], x[..|x| - 8];
      FromToBigEndian(rest);
      BitsByteRoundTrip(top);
      var bs := ToBigEndian(x);
      assert bs == [BitsByte(top)] + ToBigEndian(rest);
      assert bs[0] == BitsByte(top);
      assert bs[1..] == ToBigEndian(rest);
      assert FromBigEndian(bs) == FromBigEndian(bs[1..]) + ByteBits(bs[0]);
      assert x == rest + top;
    }
  }

  /** Writing the word read from some bytes gives those bytes back. */
  lemma {:induction false} ToFromBigEndian(bs: seq<u8>)
    ensures ToBigEndian(FromBigEndian(bs)) == bs
  {
    if bs != [] {
      var rest := FromBigEndian(bs[1..]);
      var x := rest + ByteBits(bs[0]);
      ToFromBigEndian(bs[1..]);
      ByteBitsRoundTrip(bs[0]);
      assert x[|x| - 8..] == ByteBits(bs[0]);
      assert x[..|x| - 8] == rest;
      assert bs == [bs[0]] + bs[1..];
    }
  }
}

=== FILE: device.dfy ===
/** Small bit-packing helpers of the device interface: the type and length
    of an EMAD TLV header, the fields of a 32-bit port identifier, and the
    flag bits of a telemetry threshold descriptor.  Every shift here is by a
    constant, so the values stay machine bit-vectors. */
module Device {

  const EmadTlvTypeShift: bv16 := 11

  /** `sxd_emad_tlv_type`: the top five bits of the host-order `type_len`
      word. */
  function TlvType(typeLen: bv16): (t: bv16)
    ensures t < 32
  {
    typeLen >> EmadTlvTypeShift
  }

  /** `sxd_emad_tlv_len`: the low eleven bits of `type_len`, a count of
      dwords, converted to bytes. */
  function TlvLen(typeLen: bv16): (len: bv16)
    ensures len % 4 == 0 && len <= 8188
  {
    (typeLen & ((1 << EmadTlvTypeShift) - 1)) * 4
  }

  /** The `type_len` word of a TLV with the given type and length in dwords. */
  function TlvHeader(t: bv16, dwords: bv16): (typeLen: bv16)
    requires t < 32 && dwords < 2048
  {
    (t << 11) | dwords
  }

  /** Decoding a header gives back the type and the length, in bytes. */
  lemma TlvDecodeEncode(t: bv16, dwords: bv16)
    requires t < 32 && dwords < 2048
    ensures TlvType(TlvHeader(t, dwords)) == t
    ensures TlvLen(TlvHeader(t, dwords)) == dwords * 4
  {
  }

  /** Every header word is the encoding of its decoded type and length. */
  lemma TlvEncodeDecode(typeLen: bv16)
    ensures TlvHeader(TlvType(typeLen), TlvLen(typeLen) / 4) == typeLen
  {
  }

  const PortPhyIdMask: bv32 := 0x0000_03FF
  const PortDevIdMask: bv32 := 0x0FFF_0000
  const PortTypeIdMask: bv32 := 0xF000_0000
  const PortLagIdMask: bv32 := 0x0000_03FF

  /** `SX_PORT_PHY_ID_GET`. */
  function PhyId(id: bv32): (phy: bv32)
    ensures phy < 0x400
  {
    (id & PortPhyIdMask) >> 0
  }

  /** `SX_PORT_DEV_ID_GET`. */
  function DevId(id: bv32): (dev: bv32)
    ensures dev < 0x1000
  {
    (id & PortDevIdMask) >> 16
  }

  /** `SX_PORT_TYPE_ID_GET`. */
  function TypeId(id: bv32): (ty: bv32)
    ensures ty < 0x10
  {
    (id & PortTypeIdMask) >> 28
  }

  /** `SX_PORT_LAG_ID_GET`. */
  function LagId(id: bv32): (lag: bv32)
    ensures lag < 0x400
  {
    (id & PortLagIdMask) >> 0
  }

  /** A port identifier assembled from its three fields. */
  function PortId(ty: bv32, dev: bv32, phy: bv32): (id: bv32)
    requires ty < 0x10 && dev < 0x1000 && phy < 0x400
  {
    (ty << 28) | (dev << 16) | phy
  }

  /** Each extractor returns the field it was assembled from. */
  lemma PortIdFields(ty: bv32, dev: bv32, phy: bv32)
    requires ty < 0x10 && dev < 0x1000 && phy < 0x400
    ensures TypeId(PortId(ty, dev, phy)) == ty
    ensures DevId(PortId(ty, dev, phy)) == dev
    ensures PhyId(PortId(ty, dev, phy)) == phy
  {
  }

  /** An identifier whose bits 10 to 15 are clear is exactly the assembly of
      its fields. */
  lemma PortIdOfFields(id: bv32)
    requires id & 0xFC00 == 0
    ensures PortId(TypeId(id), DevId(id), PhyId(id)) == id
  {
  }

  /** A physical port number and a LAG number occupy the same ten bits. */
  lemma LagSharesPhyField(id: bv32)
    ensures LagId(id) == PhyId(id)
  {
  }

  /** `SX_TELE_THRS_VALID_SET`. */
  function ValidSet(id: bv32): (r: bv32)
    ensures r & 1 == 1 && r & !1 == id & !1
  {
    id | 0x1
  }

  /** `SX_TELE_THRS_FIRST_EVENT_GET`. */
  function FirstEventGet(id: bv32): (b: bv32)
    ensures b <= 1 && (b == 1 <==> id & 0x2 != 0)
  {
    (id >> 1) & 0x1
  }

  /** `SX_TELE_THRS_FIRST_EVENT_SET`. */
  function FirstEventSet(id: bv32): (r: bv32)
    ensures FirstEventGet(r) == 1 && r & !2 == id & !2
  {
    id | 0x2
  }

  const TeleThrsMaybeMask: bv32 := 0x4

  /** `SX_TELE_THRS_MAYBE_GET`. */
  function MaybeGet(id: bv32): (b: bv32)
    ensures b <= 1 && (b == 1 <==> id & TeleThrsMaybeMask != 0)
  {
    (id >> 2) & 0x1
  }

  /** `SX_TELE_THRS_MAYBE_SET`. */
  function MaybeSet(id: bv32): (r: bv32)
    ensures MaybeGet(r) == 1 && r & !TeleThrsMaybeMask == id & !TeleThrsMaybeMask
  {
    id | TeleThrsMaybeMask
  }

  /** `SX_TELE_THRS_MAYBE_CLR`. */
  function MaybeClear(id: bv32): (r: bv32)
    ensures MaybeGet(r) == 0 && r & !TeleThrsMaybeMask == id & !TeleThrsMaybeMask
  {
    id & !TeleThrsMaybeMask
  }

  /** Setting or clearing the "maybe" flag leaves the first-event flag
      alone. */
  lemma MaybeKeepsFirstEvent(id: bv32)
    ensures FirstEventGet(MaybeSet(id)) == FirstEventGet(id)
    ensures FirstEventGet(MaybeClear(id)) == FirstEventGet(id)
  {
  }

  /** Clearing the "maybe" flag undoes setting it on a descriptor that did
      not have it, and the other way round. */
  lemma MaybeSetClear(id: bv32)
    ensures MaybeGet(id) == 0 ==> MaybeClear(MaybeSet(id)) == id
    ensures MaybeGet(id) == 1 ==> MaybeSet(MaybeClear(id)) == id
  {
  }

  const MinBridgeId := 4096
  const MaxBridgeId := 20479
  /** `MAX_BRIDGE_NUM`: the number of bridge identifiers. */
  const MaxBridgeNum := MaxBridgeId - MinBridgeId + 1

  /** Bridge identifiers 4k .. 20k - 1 number 16k. */
  lemma BridgeCount()
    ensures MaxBridgeNum == 16384 == 16 * 1024
  {
  }
}

=== FILE: field.dfy ===
/** The shift-and-mask arithmetic shared by every scalar accessor of the
    register codec: reading a field of `bits` bits that starts `shift` bits up
    in a word, and writing one in place.

    Both follow the accessors operator by operator.  A field read shifts the
    word right and ANDs it with `GEN_MASK(bits - 1, 0)`, an `unsigned long`,
    before the result is stored back into the word's type.  A field write
    builds `mask = GEN_MASK(bits - 1, 0) << shift` in `unsigned long`, stores it
    in the word's type, shifts and masks the new value, and combines it with
    the old word under `~mask`. */
module Field {
  import opened Bits

  /** `(tmp >> shift) & GEN_MASK(bits - 1, 0)` stored back in the type of
      `tmp`.  Bit `i` of the result is bit `shift + i` of the word for the
      `bits` lowest positions, and clear above. */
  function Extract(word: Word, shift: nat, bits: nat): (r: Word)
    requires 1 <= bits <= 64 && |word| <= 64
    ensures |r| == |word|
    ensures forall i :: 0 <= i < |r| ==> (r[i] <==> i < bits && i + shift < |word| && word[i + shift])
  {
    Resize(And(Resize(Shr(word, shift), 64), GenMask(bits - 1, 0)), |word|)
  }

  /** The mask `GEN_MASK(bits - 1, 0) << shift` stored in a word of width `n`:
      exactly the bits `shift .. shift + bits - 1` that fall inside the word. */
  function FieldMask(n: nat, shift: nat, bits: nat): (m: Word)
    requires 1 <= bits <= 64 && shift < 64
    ensures |m| == n
    ensures forall i :: 0 <= i < n ==> (m[i] <==> i < 64 && shift <= i < shift + bits)
  {
    Resize(Shl(GenMask(bits - 1, 0), shift), n)
  }

  /** `(tmp & ~mask) | ((val << shift) & mask)`: the word with the field
      replaced by the low bits of `val`, and every other bit kept. */
  function Insert(word: Word, shift: nat, bits: nat, val: Word): (r: Word)
    requires 1 <= bits <= 64 && shift < 64 && |val| == |word| <= 64
    ensures |r| == |word|
    ensures forall i :: 0 <= i < |r| ==> r[i] == if shift <= i < shift + bits then val[i - shift] else word[i]
  {
    var mask := FieldMask(|word|, shift, bits);
    Or(And(word, Not(mask)), And(Shl(val, shift), mask))
  }

  /** Number of bits of a word of width `n` from position `shift` upward. */
  function Room(n: nat, shift: nat): nat
  {
    if shift <= n then n - shift else 0
  }

  /** The field holds at most `bits` bits, and at most what is left of the
      word above `shift`: its value is below 2^bits. */
  lemma ExtractBound(word: Word, shift: nat, bits: nat)
    requires 1 <= bits <= 64 && |word| <= 64
    ensures Fits(Extract(word, shift, bits), bits)
    ensures Fits(Extract(word, shift, bits), Room(|word|, shift))
    ensures ToNat(Extract(word, shift, bits)) < Pow2(bits)
  {
    FitsValue(Extract(word, shift, bits), bits);
  }

  /** Reading a field just written gives back the written value, cut to the
      bits of the field that lie inside the word. */
  lemma ExtractInsert(word: Word, shift: nat, bits: nat, val: Word)
    requires 1 <= bits <= 64 && shift < 64 && |val| == |word| <= 64
    ensures forall i :: 0 <= i < |word| ==>
      (Extract(Insert(word, shift, bits, val), shift, bits)[i] <==> i < bits && i + shift < |word| && val[i])
  {
  }

  /** A value that fits the field survives the write and the read unchanged. */
  lemma ExtractInsertFits(word: Word, shift: nat, bits: nat, val: Word)
    requires 1 <= bits <= 64 && shift < 64 && |val| == |word| <= 64
    requires Fits(val, bits) && Fits(val, Room(|word|, shift))
    ensures Extract(Insert(word, shift, bits, val), shift, bits) == val
  {
    ExtractInsert(word, shift, bits, val);
  }

  /** Writing back what was read leaves the word as it was. */
  lemma InsertExtract(word: Word, shift: nat, bits: nat)
    requires 1 <= bits <= 64 && shift < 64 && |word| <= 64
    ensures Insert(word, shift, bits, Extract(word, shift, bits)) == word
  {
  }

  /** Of two writes to one field only the second is visible. */
  lemma InsertInsert(word: Word, shift: nat, bits: nat, v1: Word, v2: Word)
    requires 1 <= bits <= 64 && shift < 64 && |v1| == |v2| == |word| <= 64
    ensures Insert(Insert(word, shift, bits, v1), shift, bits, v2) == Insert(word, shift, bits, v2)
  {
  }

  /** Writing one field leaves a field of disjoint bit range unchanged. */
  lemma ExtractInsertDisjoint(word: Word, s1: nat, b1: nat, val: Word, s2: nat, b2: nat)
    requires 1 <= b1 <= 64 && s1 < 64 && |val| == |word| <= 64
    requires 1 <= b2 <= 64
    requires s1 + b1 <= s2 || s2 + b2 <= s1
    ensures Extract(Insert(word, s1, b1, val), s2, b2) == Extract(word, s2, b2)
  {
  }
}

=== FILE: headers.dfy ===
/** Saving the first 256 bytes of PCI configuration space before a reset of
    a SwitchX device, and writing them back afterwards. The configuration
    accesses are collaborators: each read is scripted by its status and by the
    value it leaves in the buffer, each write by its status. */
module Headers {
  import opened Kernel

  /** `SX_HCA_HEADERS_SIZE`, in bytes, and the dwords it holds. */
  const HeadersSize := 256
  const HeaderDwords := 64
  /** Configuration-space offsets of the command register and of the PCI
      Express device and link control registers within the capability. */
  const PciCommand := 0x04
  const PciExpDevCtl := 8
  const PciExpLnkCtl := 16

  /** Dwords 22 and 23 have a special meaning and are never read. */
  predicate Skipped(i: nat) {
    i == 22 || i == 23
  }

  datatype DwordRead = DwordRead(status: int, value: bv32)

  /** Every dword below `n` that is read, is read successfully. */
  predicate ReadsOk(observed: seq<DwordRead>, n: nat)
    requires n <= |observed| == HeaderDwords
  {
    forall i :: 0 <= i < n && !Skipped(i) ==> observed[i].status == 0
  }

  /** Every dword of the header that is read, is read successfully. */
  predicate SaveOk(observed: seq<DwordRead>)
    requires |observed| == HeaderDwords
  {
    ReadsOk(observed, HeaderDwords)
  }

  /** The buffer holds what was read from the dwords below `n`, and zero
      elsewhere. */
  predicate SavedUpTo(header: seq<bv32>, observed: seq<DwordRead>, n: nat)
    requires |header| == |observed| == HeaderDwords
  {
    forall j :: 0 <= j < HeaderDwords ==> header[j] == if !Skipped(j) && j < n then observed[j].value else 0
  }

  /** The buffer a complete save leaves: every dword holds what was read
      from it, except dwords 22 and 23, which stay zero. */
  function SavedHeader(observed: seq<DwordRead>): (header: seq<bv32>)
    requires |observed| == HeaderDwords
    ensures |header| == HeaderDwords && SavedUpTo(header, observed, HeaderDwords)
  {
    seq(HeaderDwords, j requires 0 <= j < HeaderDwords => if Skipped(j) then 0 else observed[j].value)
  }

  /** `__save_headers_data`: clear the buffer, then read every dword except
      22 and 23, in increasing order, giving up at the first read that fails.
      `reached` counts the dwords examined. */
  method SaveHeaders(observed: seq<DwordRead>) returns (err: int, header: seq<bv32>, reached: nat)
    requires |observed| == HeaderDwords
    ensures |header| == HeaderDwords && reached <= HeaderDwords
    ensures err == 0 <==> SaveOk(observed)
    ensures err == 0 ==> reached == HeaderDwords
    ensures err != 0 ==> err == -ENODEV && 0 < reached && !Skipped(reached - 1) && observed[reached - 1].status != 0
    ensures err != 0 ==> ReadsOk(observed, reached - 1)
    ensures SavedUpTo(header, observed, reached)
    ensures err == 0 ==> header == SavedHeader(observed)
  {
    header := seq(HeaderDwords, _ => 0);
    err := 0;
    reached := 0;
    while reached < HeaderDwords && err == 0
      invariant reached <= HeaderDwords && |header| == HeaderDwords
      invariant err == 0 ==> ReadsOk(observed, reached)
      invariant err != 0 ==> err == -ENODEV && 0 < reached && !Skipped(reached - 1) && observed[reached - 1].status != 0
      invariant err != 0 ==> ReadsOk(observed, reached - 1)
      invariant SavedUpTo(header, observed, reached)
    {
      if !Skipped(reached) {
        header := header[reached := observed[reached].value];
        if observed[reached].status != 0 {
          err := -ENODEV;
        }
      }
      reached := reached + 1;
    }
    if err != 0 {
      assert !ReadsOk(observed, HeaderDwords) by {
        assert !Skipped(reached - 1) && observed[reached - 1].status != 0;
      }
    } else {
      SameHeader(header, SavedHeader(observed), observed);
    }
  }

  /** Two buffers that both hold a complete save are equal. */
  lemma SameHeader(h1: seq<bv32>, h2: seq<bv32>, observed: seq<DwordRead>)
    requires |h1| == |h2| == |observed| == HeaderDwords
    requires SavedUpTo(h1, observed, HeaderDwords) && SavedUpTo(h2, observed, HeaderDwords)
    ensures h1 == h2
  {
  }

  /** Every write of the restore succeeds. */
  predicate WritesOk(statuses: seq<int>) {
    forall k :: 0 <= k < |statuses| ==> statuses[k] == 0
  }

  /** The restore stopped at write `n - 1`, the first that failed. */
  predicate StoppedAtFailure(statuses: seq<int>, n: nat)
    requires n <= |statuses|
  {
    0 < n && statuses[n - 1] != 0 && forall k :: 0 <= k < n - 1 ==> statuses[k] == 0
  }

  /** A u32 assigned to a u16 keeps its low half. */
  function Low16(x: bv32): (w: bv16)
    ensures w as bv32 == x & 0xFFFF
  {
    (x & 0xFFFF) as bv16
  }

  datatype ConfigWrite = WordWrite(offset: nat, word: bv16) | DwordWrite(offset: nat, dword: bv32)

  /** The dword the `k`-th write of the restore loop writes back: dword 0,
      then dwords 2 upwards, the command register's dword 1 being left for
      last. */
  function BulkDword(k: nat): nat {
    if k == 0 then 0 else k + 1
  }

  /** The dword writes of the restore loop below dword `n`: every dword
      except the command register's. */
  function RestoredBelow(header: seq<bv32>, n: nat): (ws: seq<ConfigWrite>)
    requires n <= |header| == HeaderDwords
  {
    if n == 0 then []
    else
      var tail := if (n - 1) * 4 == PciCommand then [] else [DwordWrite((n - 1) * 4, header[n - 1])];
      RestoredBelow(header, n - 1) + tail
  }

  lemma {:induction false} RestoredBelowShape(header: seq<bv32>, n: nat)
    requires n <= |header| == HeaderDwords
    ensures |RestoredBelow(header, n)| == if n <= 1 then n else n - 1
    ensures forall k :: 0 <= k < |RestoredBelow(header, n)| ==>
      RestoredBelow(header, n)[k].DwordWrite? && RestoredBelow(header, n)[k].offset != PciCommand
    ensures forall i :: 0 <= i < n && i * 4 != PciCommand ==> DwordWrite(i * 4, header[i]) in RestoredBelow(header, n)
  {
    if n > 0 {
      RestoredBelowShape(header, n - 1);
    }
  }

  /** The restore loop writes the dwords in increasing order: its `k`-th
      write is dword `BulkDword(k)`. */
  lemma {:induction false} RestoredBelowOrder(header: seq<bv32>, n: nat)
    requires n <= |header| == HeaderDwords
    ensures forall k :: 0 <= k < |RestoredBelow(header, n)| ==>
      BulkDword(k) < n && RestoredBelow(header, n)[k] == DwordWrite(BulkDword(k) * 4, header[BulkDword(k)])
  {
    if n > 0 {
      RestoredBelowOrder(header, n - 1);
      RestoredBelowShape(header, n - 1);
    }
  }

  /** The writes `__restore_headers_data` performs when none fails: the PCI
      Express device and link control words when the capability is present,
      then dwords 0 to 15 except the command register, then the command
      register last. */
  function RestorePlan(header: seq<bv32>, pcieCap: nat): (plan: seq<ConfigWrite>)
    requires |header| == HeaderDwords && pcieCap + PciExpLnkCtl < HeadersSize
    ensures |plan| == (if pcieCap != 0 then 2 else 0) + 16
    ensures plan[|plan| - 1] == DwordWrite(PciCommand, header[PciCommand / 4])
    ensures forall k :: 0 <= k < |plan| - 1 ==> !(plan[k].DwordWrite? && plan[k].offset == PciCommand)
    ensures forall i :: 0 <= i < 16 ==> DwordWrite(i * 4, header[i]) in plan
    ensures pcieCap != 0 ==>
      plan[0] == WordWrite(pcieCap + PciExpDevCtl, Low16(header[(pcieCap + PciExpDevCtl) / 4])) &&
      plan[1] == WordWrite(pcieCap + PciExpLnkCtl, Low16(header[(pcieCap + PciExpLnkCtl) / 4]))
    ensures pcieCap == 0 ==> forall k :: 0 <= k < |plan| ==> plan[k].DwordWrite?
  {
    var control :=
      if pcieCap != 0 then
        [WordWrite(pcieCap + PciExpDevCtl, Low16(header[(pcieCap + PciExpDevCtl) / 4])),
         WordWrite(pcieCap + PciExpLnkCtl, Low16(header[(pcieCap + PciExpLnkCtl) / 4]))]
      else [];
    var bulk := RestoredBelow(header, 16);
    RestoredBelowShape(header, 16);
    control + bulk + [DwordWrite(PciCommand, header[PciCommand / 4])]
  }

  /** One write of the plan after the control words is the matching write
      of the restore loop. */
  lemma PlanAt(header: seq<bv32>, pcieCap: nat, k: nat)
    requires |header| == HeaderDwords && pcieCap + PciExpLnkCtl < HeadersSize && k < 15
    ensures |RestoredBelow(header, 16)| == 15
    ensures RestorePlan(header, pcieCap)[(if pcieCap != 0 then 2 else 0) + k] == RestoredBelow(header, 16)[k]
  {
    RestoredBelowShape(header, 16);
  }

  /** Between the control words and the command register, the `k`-th
      write is the restore loop's write of dword `BulkDword(k)`. */
  lemma RestorePlanBulk(header: seq<bv32>, pcieCap: nat)
    requires |header| == HeaderDwords && pcieCap + PciExpLnkCtl < HeadersSize
    ensures var plan := RestorePlan(header, pcieCap);
      var c := if pcieCap != 0 then 2 else 0;
      forall k :: 0 <= k < 15 ==> plan[c + k] == DwordWrite(BulkDword(k) * 4, header[BulkDword(k)])
  {
    RestoredBelowOrder(header, 16);
    forall k | 0 <= k < 15
      ensures RestorePlan(header, pcieCap)[(if pcieCap != 0 then 2 else 0) + k]
        == DwordWrite(BulkDword(k) * 4, header[BulkDword(k)])
    {
      PlanAt(header, pcieCap, k);
    }
  }

  /** Between the control words and the command register, the restore
      writes go to strictly increasing offsets. */
  lemma RestorePlanAscending(header: seq<bv32>, pcieCap: nat)
    requires |header| == HeaderDwords && pcieCap + PciExpLnkCtl < HeadersSize
    ensures var plan := RestorePlan(header, pcieCap);
      var c := if pcieCap != 0 then 2 else 0;
      forall k, k' :: c <= k < k' < |plan| - 1 ==> plan[k].offset < plan[k'].offset
  {
    var plan := RestorePlan(header, pcieCap);
    var c := if pcieCap != 0 then 2 else 0;
    RestorePlanBulk(header, pcieCap);
    forall k, k' | c <= k < k' < |plan| - 1
      ensures plan[k].offset < plan[k'].offset
    {
      assert plan[c + (k - c)].offset == BulkDword(k - c) * 4;
      assert plan[c + (k' - c)].offset == BulkDword(k' - c) * 4;
    }
  }


  /** `__restore_headers_data`: perform the planned writes in order, giving up
      at the first one that fails. `statuses[k]` is what the k-th write
      returns; `done` lists the writes attempted. */
  method RestoreHeaders(header: seq<bv32>, pcieCap: nat, statuses: seq<int>) returns (err: int, done: seq<ConfigWrite>)
    requires |header| == HeaderDwords && pcieCap + PciExpLnkCtl < HeadersSize
    requires |statuses| == |RestorePlan(header, pcieCap)|
    ensures err == 0 || err == -ENODEV
    ensures |done| <= |statuses| && done == RestorePlan(header, pcieCap)[..|done|]
    ensures err == 0 <==> WritesOk(statuses)
    ensures err == 0 ==> done == RestorePlan(header, pcieCap)
    ensures err != 0 ==> StoppedAtFailure(statuses, |done|)
    ensures forall k :: 0 <= k < |done| - 1 ==> statuses[k] == 0
  {
    var plan := RestorePlan(header, pcieCap);
    done := [];
    var k := 0;
    while k < |plan|
      invariant 0 <= k <= |plan| && done == plan[..k]
      invariant forall j :: 0 <= j < k ==> statuses[j] == 0
    {
      done := done + [plan[k]];
      if statuses[k] != 0 {
        return -ENODEV, done;
      }
      k := k + 1;
    }
    return 0, done;
  }

  /** After a successful save, the restore plan writes every dword of the
      standard header back with the value that was read from it. */
  lemma SaveRestoreRoundTrip(observed: seq<DwordRead>, header: seq<bv32>, pcieCap: nat)
    requires |observed| == |header| == HeaderDwords && pcieCap + PciExpLnkCtl < HeadersSize
    requires forall i :: 0 <= i < HeaderDwords ==> header[i] == if Skipped(i) then 0 else observed[i].value
    ensures forall i :: 0 <= i < 16 ==> DwordWrite(i * 4, observed[i].value) in RestorePlan(header, pcieCap)
  {
    forall i | 0 <= i < 16
      ensures DwordWrite(i * 4, observed[i].value) in RestorePlan(header, pcieCap)
    {
      assert header[i] == observed[i].value;
    }
  }

  /** The device and link control words come from the saved dwords that hold
      them; a capability placed so that one of them falls in dword 22 or 23
      gets a zero written back, since those dwords are never saved. */
  lemma ControlWordSource(observed: seq<DwordRead>, header: seq<bv32>, pcieCap: nat)
    requires |observed| == |header| == HeaderDwords && 0 < pcieCap && pcieCap + PciExpLnkCtl < HeadersSize
    requires forall i :: 0 <= i < HeaderDwords ==> header[i] == if Skipped(i) then 0 else observed[i].value
    ensures RestorePlan(header, pcieCap)[0].word ==
      if Skipped((pcieCap + PciExpDevCtl) / 4) then 0 else Low16(observed[(pcieCap + PciExpDevCtl) / 4].value)
    ensures RestorePlan(header, pcieCap)[1].word ==
      if Skipped((pcieCap + PciExpLnkCtl) / 4) then 0 else Low16(observed[(pcieCap + PciExpLnkCtl) / 4].value)
  {
  }
}

=== FILE: item.dfy ===
/** Register items: where a field sits in a register buffer, and the typed
    accessors that read and write it.

    An item is described by a byte offset into the buffer, a step and an
    offset inside one step for indexed items, a bit shift, and a size that is
    a bit count for scalar fields or a byte count for buffer fields.  Scalar
    accessors come in four widths; each reads the big-endian word of that
    width that holds the field and applies `Field.Extract` or `Field.Insert`
    to it.  Conditions under which the source calls BUG(), and operand values
    for which C leaves a shift undefined, are preconditions here. */
module Item {
  import opened Bits
  import opened Field

  /** The `size` union of an item: a bit count for scalar fields, a byte count
      for buffer fields. */
  datatype Size = InBits(bits: u8) | InBytes(bytes: u16)

  /** `struct mlxsw_item`: where a field of a register buffer lives. */
  datatype ItemDesc = ItemDesc(
    offset: u16,        // bytes from the start of the buffer
    step: u16,          // bytes between two entries of an indexed item
    inStepOffset: u16,  // offset inside one step
    shift: u8,          // bit position of the field inside its word
    elementSize: u8,    // bits per element of a bit array
    size: Size)

  /** The four word types of the scalar accessors. */
  datatype Width = W8 | W16 | W32 | W64 {

    /** `sizeof` of the word type. */
    function TypeSize(): nat
    {
      match this
      case W8 => 1
      case W16 => 2
      case W32 => 4
      case W64 => 8
    }

    /** Bits of the word type. */
    function BitWidth(): nat
    {
      8 * TypeSize()
    }

    /** Bits of the type a shift of this word is carried out in: `u8` and `u16`
        are promoted to a 32-bit `int`. */
    function PromotedWidth(): nat
    {
      if BitWidth() < 32 then 32 else BitWidth()
    }
  }

  /** The byte distance of an item entry from the start of the buffer. */
  function Span(item: ItemDesc, outer: u16, index: u16, typeSize: nat): nat
  {
    item.offset + outer * typeSize + item.step * index + item.inStepOffset
  }

  /** The conditions `__mlxsw_item_offset` checks before it computes: a
      nonzero index needs a nonzero step, and offset, step and in-step offset
      must all be multiples of the access size. */
  predicate Addressable(item: ItemDesc, index: u16, typeSize: nat)
  {
    && typeSize in {1, 2, 4, 8}
    && (index != 0 ==> item.step != 0)
    && item.offset % typeSize == 0
    && item.step % typeSize == 0
    && item.inStepOffset % typeSize == 0
  }

  /** `__mlxsw_item_offset`: the position of an item entry counted in words of
      `typeSize` bytes, returned as a 32-bit `unsigned int`.  For word sizes of
      two bytes or more the sum never reaches 2^32 words, and for bytes it is
      exact as long as it stays below 2^32; in both cases the position times
      the word size is exactly the byte distance. */
  function Offset(item: ItemDesc, outer: u16, index: u16, typeSize: nat): (r: nat)
    requires Addressable(item, index, typeSize)
    ensures r < 0x1_0000_0000
  {
    var span := Span(item, outer, index, typeSize);
    var words :=
      if typeSize == 1 then span
      else if typeSize == 2 then span / 2
      else if typeSize == 4 then span / 4
      else span / 8;
    words % 0x1_0000_0000
  }

  /** The position times the word size is exactly the byte distance, unless
      a one-byte position has wrapped past 2^32. */
  lemma OffsetExact(item: ItemDesc, outer: u16, index: u16, typeSize: nat)
    requires Addressable(item, index, typeSize)
    ensures typeSize >= 2 || Span(item, outer, index, typeSize) < 0x1_0000_0000 ==>
              Offset(item, outer, index, typeSize) * typeSize == Span(item, outer, index, typeSize)
  {
    SpanExact(item, outer, index, typeSize);
  }

  lemma SpanExact(item: ItemDesc, outer: u16, index: u16, typeSize: nat)
    requires Addressable(item, index, typeSize)
    ensures var span := Span(item, outer, index, typeSize);
            && span % typeSize == 0
            && (span / typeSize) * typeSize == span
            && (typeSize >= 2 ==> span / typeSize < 0x1_0000_0000)
  {
    var k := item.step / typeSize;
    assert item.step == k * typeSize;
    assert item.step * index == (k * index) * typeSize;
    assert item.step * index <= 0xFFFF * 0xFFFF by {
      MulBound(item.step, index, 0xFFFF);
    }
    var m := item.offset / typeSize + outer + k * index + item.inStepOffset / typeSize;
    assert Span(item, outer, index, typeSize) == m * typeSize;
    DivOfMultiple(m, typeSize);
  }

  lemma MulBound(a: nat, b: nat, c: nat)
    requires a <= c && b <= c
    ensures a * b <= c * c
  {
    assert a * b <= c * b <= c * c;
  }

  lemma DivOfMultiple(m: nat, d: nat)
    requires d in {1, 2, 4, 8}
    ensures (m * d) % d == 0 && (m * d) / d == m
  {
  }

  /** The scalar accessors' demands on the item: a bit size, which has to be
      between 1 and 64 for `GEN_MASK(bits - 1, 0)` to be defined, and a shift
      below the width of the type the shift is carried out in. */
  predicate Scalar(item: ItemDesc, w: Width)
  {
    && item.size.InBits?
    && 1 <= item.size.bits <= 64
    && item.shift < w.PromotedWidth()
  }

  /** Byte address of the word that holds the entry. */
  function WordAddress(item: ItemDesc, w: Width, outer: u16, index: u16): nat
    requires Addressable(item, index, w.TypeSize())
  {
    Offset(item, outer, index, w.TypeSize()) * w.TypeSize()
  }

  /** All the accessors' demands: a well-formed scalar item whose word lies
      inside the buffer. */
  predicate Accessible(buf: seq<u8>, item: ItemDesc, w: Width, outer: u16, index: u16)
  {
    && Scalar(item, w)
    && Addressable(item, index, w.TypeSize())
    && WordAddress(item, w, outer, index) + w.TypeSize() <= |buf|
  }

  /** The big-endian word of `n` bytes stored at byte `at`. */
  function ReadWord(buf: seq<u8>, at: nat, n: nat): (x: Word)
    requires at + n <= |buf|
    ensures |x| == 8 * n
  {
    FromBigEndian(buf[at .. at + n])
  }

  /** The buffer with the word `x` of `n` bytes stored big-endian at byte
      `at`; no byte outside the word changes. */
  function WriteWord(buf: seq<u8>, at: nat, n: nat, x: Word): (r: seq<u8>)
    requires at + n <= |buf| && |x| == 8 * n
    ensures |r| == |buf|
    ensures forall j :: 0 <= j < |buf| && !(at <= j < at + n) ==> r[j] == buf[j]
  {
    buf[..at] + ToBigEndian(x) + buf[at + n..]
  }

  /** Reading a word back after storing it gives the stored word. */
  lemma ReadWriteWord(buf: seq<u8>, at: nat, n: nat, x: Word)
    requires at + n <= |buf| && |x| == 8 * n
    ensures ReadWord(WriteWord(buf, at, n, x), at, n) == x
  {
    var r := WriteWord(buf, at, n, x);
    assert r[at .. at + n] == ToBigEndian(x);
    FromToBigEndian(x);
  }

  /** Storing the word that is already there changes nothing. */
  lemma WriteReadWord(buf: seq<u8>, at: nat, n: nat)
    requires at + n <= |buf|
    ensures WriteWord(buf, at, n, ReadWord(buf, at, n)) == buf
  {
    var bytes := buf[at .. at + n];
    ToFromBigEndian(bytes);
    Splice(buf, at, n);
  }

  lemma Splice(buf: seq<u8>, at: nat, n: nat)
    requires at + n <= |buf|
    ensures buf[..at] + buf[at .. at + n] + buf[at + n..] == buf
  {
  }

  /** Of two stores to one word only the second is visible. */
  lemma WriteWriteWord(buf: seq<u8>, at: nat, n: nat, x: Word, y: Word)
    requires at + n <= |buf| && |x| == |y| == 8 * n
    ensures WriteWord(WriteWord(buf, at, n, x), at, n, y) == WriteWord(buf, at, n, y)
  {
    var r := WriteWord(buf, at, n, x);
    assert r[..at] == buf[..at];
    assert r[at + n..] == buf[at + n..];
  }

  /** Storing a word leaves a word at disjoint bytes unchanged. */
  lemma ReadWriteOther(buf: seq<u8>, at: nat, n: nat, x: Word, at': nat, n': nat)
    requires at + n <= |buf| && |x| == 8 * n
    requires at' + n' <= |buf|
    requires at + n <= at' || at' + n' <= at
    ensures ReadWord(WriteWord(buf, at, n, x), at', n') == ReadWord(buf, at', n')
  {
    var r := WriteWord(buf, at, n, x);
    assert r[at' .. at' + n'] == buf[at' .. at' + n'];
  }

  /** `__mlxsw_item_get8`, `_get16`, `_get32`, `_get64`: the field of the
      entry, as a word of the accessor's width.  Its value is below
      2^bits, and below 2^(width - shift). */
  function Get(buf: seq<u8>, item: ItemDesc, w: Width, outer: u16, index: u16): (v: Word)
    requires Accessible(buf, item, w, outer, index)
    ensures |v| == w.BitWidth()
    ensures Fits(v, item.size.bits) && Fits(v, Room(w.BitWidth(), item.shift))
    ensures ToNat(v) < Pow2(item.size.bits)
  {
    var word := ReadWord(buf, WordAddress(item, w, outer, index), w.TypeSize());
    ExtractBound(word, item.shift, item.size.bits);
    Extract(word, item.shift, item.size.bits)
  }

  /** `__mlxsw_item_set8`, `_set16`, `_set32`, `_set64`: the buffer with the
      field of the entry replaced by `val`.  Only the bytes of the entry's
      word can change. */
  function Set(buf: seq<u8>, item: ItemDesc, w: Width, outer: u16, index: u16, val: Word): (r: seq<u8>)
    requires Accessible(buf, item, w, outer, index) && |val| == w.BitWidth()
    ensures |r| == |buf|
    ensures var at := WordAddress(item, w, outer, index);
            forall j :: 0 <= j < |buf| && !(at <= j < at + w.TypeSize()) ==> r[j] == buf[j]
  {
    var at := WordAddress(item, w, outer, index);
    var word := ReadWord(buf, at, w.TypeSize());
    WriteWord(buf, at, w.TypeSize(), Insert(word, item.shift, item.size.bits, val))
  }

  /** Reading a field after writing it gives back the written value, as far
      as the field's bits reach. */
  lemma GetSet(buf: seq<u8>, item: ItemDesc, w: Width, outer: u16, index: u16, val: Word)
    requires Accessible(buf, item, w, outer, index) && |val| == w.BitWidth()
    ensures var v := Get(Set(buf, item, w, outer, index, val), item, w, outer, index);
            forall i :: 0 <= i < |v| ==>
              (v[i] <==> i < item.size.bits && i + item.shift < w.BitWidth() && val[i])
  {
    var at := WordAddress(item, w, outer, index);
    var word := ReadWord(buf, at, w.TypeSize());
    ReadWriteWord(buf, at, w.TypeSize(), Insert(word, item.shift, item.size.bits, val));
    ExtractInsert(word, item.shift, item.size.bits, val);
  }

  /** A value that fits the field is read back exactly. */
  lemma GetSetFits(buf: seq<u8>, item: ItemDesc, w: Width, outer: u16, index: u16, val: Word)
    requires Accessible(buf, item, w, outer, index) && |val| == w.BitWidth()
    requires Fits(val, item.size.bits) && Fits(val, Room(w.BitWidth(), item.shift))
    ensures Get(Set(buf, item, w, outer, index, val), item, w, outer, index) == val
  {
    GetSet(buf, item, w, outer, index, val);
  }

  /** When the field lies inside the word, reading it back gives the written
      value masked by GEN_MASK(bits - 1, 0). */
  lemma GetSetMasked(buf: seq<u8>, item: ItemDesc, w: Width, outer: u16, index: u16, val: Word)
    requires Accessible(buf, item, w, outer, index) && |val| == w.BitWidth()
    requires item.shift + item.size.bits <= w.BitWidth()
    ensures Get(Set(buf, item, w, outer, index, val), item, w, outer, index)
            == And(val, Resize(GenMask(item.size.bits - 1, 0), w.BitWidth()))
  {
    GetSet(buf, item, w, outer, index, val);
  }

  /** Setting a field changes only the field's bits of the addressed word
      (at byte `at`): the word read back is the word before with the field
      inserted, which by `Insert`'s contract keeps every other bit. */
  lemma SetOnlyFieldBits(buf: seq<u8>, item: ItemDesc, w: Width, outer: u16, index: u16, val: Word, at: nat)
    requires Accessible(buf, item, w, outer, index) && |val| == w.BitWidth()
    requires at == WordAddress(item, w, outer, index)
    ensures ReadWord(Set(buf, item, w, outer, index, val), at, w.TypeSize())
            == Insert(ReadWord(buf, at, w.TypeSize()), item.shift, item.size.bits, val)
  {
    SetIsWrite(buf, item, w, outer, index, val, at);
    ReadWriteWord(buf, at, w.TypeSize(), Insert(ReadWord(buf, at, w.TypeSize()), item.shift, item.size.bits, val));
  }

  lemma SetIsWrite(buf: seq<u8>, item: ItemDesc, w: Width, outer: u16, index: u16, val: Word, at: nat)
    requires Accessible(buf, item, w, outer, index) && |val| == w.BitWidth()
    requires at == WordAddress(item, w, outer, index)
    ensures Set(buf, item, w, outer, index, val)
            == WriteWord(buf, at, w.TypeSize(), Insert(ReadWord(buf, at, w.TypeSize()), item.shift, item.size.bits, val))
  {
  }

  /** Writing back the value just read leaves the buffer unchanged. */
  lemma SetGet(buf: seq<u8>, item: ItemDesc, w: Width, outer: u16, index: u16)
    requires Accessible(buf, item, w, outer, index)
    ensures Set(buf, item, w, outer, index, Get(buf, item, w, outer, index)) == buf
  {
    var at := WordAddress(item, w, outer, index);
    var word := ReadWord(buf, at, w.TypeSize());
    InsertExtract(word, item.shift, item.size.bits);
    WriteReadWord(buf, at, w.TypeSize());
  }

  /** Of two writes to one field only the second is visible. */
  lemma SetSet(buf: seq<u8>, item: ItemDesc, w: Width, outer: u16, index: u16, v1: Word, v2: Word)
    requires Accessible(buf, item, w, outer, index) && |v1| == |v2| == w.BitWidth()
    ensures Accessible(Set(buf, item, w, outer, index, v1), item, w, outer, index)
    ensures Set(Set(buf, item, w, outer, index, v1), item, w, outer, index, v2)
            == Set(buf, item, w, outer, index, v2)
  {
    var at := WordAddress(item, w, outer, index);
    var word := ReadWord(buf, at, w.TypeSize());
    var n := w.TypeSize();
    var x1 := Insert(word, item.shift, item.size.bits, v1);
    var x2 := Insert(word, item.shift, item.size.bits, v2);
    ReadWriteWord(buf, at, n, x1);
    InsertInsert(word, item.shift, item.size.bits, v1, v2);
    WriteWriteWord(buf, at, n, x1, x2);
  }

  /** Writing one field leaves a field held in other bytes unchanged. */
  lemma GetSetOtherWord(buf: seq<u8>, a: ItemDesc, w: Width, outer: u16, index: u16, val: Word,
                        b: ItemDesc, w': Width, outer': u16, index': u16)
    requires Accessible(buf, a, w, outer, index) && |val| == w.BitWidth()
    requires Accessible(buf, b, w', outer', index')
    requires var at, at' := WordAddress(a, w, outer, index), WordAddress(b, w', outer', index');
             at + w.TypeSize() <= at' || at' + w'.TypeSize() <= at
    ensures Accessible(Set(buf, a, w, outer, index, val), b, w', outer', index')
    ensures Get(Set(buf, a, w, outer, index, val), b, w', outer', index') == Get(buf, b, w', outer', index')
  {
    var at := WordAddress(a, w, outer, index);
    var word := ReadWord(buf, at, w.TypeSize());
    ReadWriteOther(buf, at, w.TypeSize(), Insert(word, a.shift, a.size.bits, val),
                   WordAddress(b, w', outer', index'), w'.TypeSize());
  }

  /** Writing one field leaves a field of the same word with a disjoint bit
      range unchanged. */
  lemma GetSetSameWord(buf: seq<u8>, a: ItemDesc, w: Width, outer: u16, index: u16, val: Word,
                       b: ItemDesc, outer': u16, index': u16)
    requires Accessible(buf, a, w, outer, index) && |val| == w.BitWidth()
    requires Accessible(buf, b, w, outer', index')
    requires WordAddress(a, w, outer, index) == WordAddress(b, w, outer', index')
    requires a.shift + a.size.bits <= b.shift || b.shift + b.size.bits <= a.shift
    ensures Accessible(Set(buf, a, w, outer, index, val), b, w, outer', index')
    ensures Get(Set(buf, a, w, outer, index, val), b, w, outer', index') == Get(buf, b, w, outer', index')
  {
    var at := WordAddress(a, w, outer, index);
    var word := ReadWord(buf, at, w.TypeSize());
    ReadWriteWord(buf, at, w.TypeSize(), Insert(word, a.shift, a.size.bits, val));
    ExtractInsertDisjoint(word, a.shift, a.size.bits, val, b.shift, b.size.bits);
  }

  /** The demands of the buffer accessors: a byte-count item whose bytes lie
      inside the buffer. */
  predicate BufferAccessible(buf: seq<u8>, item: ItemDesc, index: u16)
  {
    && item.size.InBytes?
    && Addressable(item, index, 1)
    && Offset(item, 0, index, 1) + item.size.bytes <= |buf|
  }

  /** `__mlxsw_item_memcpy_from`: the `size.bytes` bytes of the entry. */
  function MemcpyFrom(buf: seq<u8>, item: ItemDesc, index: u16): (dst: seq<u8>)
    requires BufferAccessible(buf, item, index)
    ensures |dst| == item.size.bytes
    ensures forall k :: 0 <= k < item.size.bytes ==> dst[k] == buf[Offset(item, 0, index, 1) + k]
  {
    var at := Offset(item, 0, index, 1);
    buf[at .. at + item.size.bytes]
  }

  /** `__mlxsw_item_memcpy_to`: the buffer with the entry's bytes replaced by
      the first `size.bytes` bytes of `src`; no other byte changes. */
  function MemcpyTo(buf: seq<u8>, item: ItemDesc, index: u16, src: seq<u8>): (r: seq<u8>)
    requires BufferAccessible(buf, item, index) && item.size.bytes <= |src|
    ensures |r| == |buf|
    ensures var at := Offset(item, 0, index, 1);
            forall j :: 0 <= j < |buf| && !(at <= j < at + item.size.bytes) ==> r[j] == buf[j]
    ensures forall k :: 0 <= k < item.size.bytes ==> r[Offset(item, 0, index, 1) + k] == src[k]
  {
    var at := Offset(item, 0, index, 1);
    buf[..at] + src[..item.size.bytes] + buf[at + item.size.bytes..]
  }

  /** Copying out after copying in gives the bytes copied in. */
  lemma MemcpyFromTo(buf: seq<u8>, item: ItemDesc, index: u16, src: seq<u8>)
    requires BufferAccessible(buf, item, index) && item.size.bytes <= |src|
    ensures BufferAccessible(MemcpyTo(buf, item, index, src), item, index)
    ensures MemcpyFrom(MemcpyTo(buf, item, index, src), item, index) == src[..item.size.bytes]
  {
  }

  /** Copying in the bytes just copied out leaves the buffer unchanged. */
  lemma MemcpyToFrom(buf: seq<u8>, item: ItemDesc, index: u16)
    requires BufferAccessible(buf, item, index)
    ensures MemcpyTo(buf, item, index, MemcpyFrom(buf, item, index)) == buf
  {
  }
}

=== FILE: kernel.dfy ===
/** The kernel values the driver returns and an optional result. Error
    numbers are the Linux ones; a failing call returns the negated number. */
module Kernel {
  const ENODEV: int := 19
  const ENOMEM: int := 12
  const EINVAL: int := 22
  const EFAULT: int := 14
  const ETIME: int := 62

  datatype Option<T> = None | Some(value: T)

  /** The index of the first element of `s` from `from` on that satisfies
      `p`, or `|s|` when there is none. */
  function FirstWhere<T>(s: seq<T>, p: T -> bool, from: nat): (k: nat)
    requires from <= |s|
    ensures from <= k <= |s|
    ensures k < |s| ==> p(s[k])
    ensures forall j :: from <= j < k ==> !p(s[j])
    decreases |s| - from
  {
    if from == |s| then from
    else if p(s[from]) then from
    else FirstWhere(s, p, from + 1)
  }
}

=== FILE: reset.dfy ===
/** The software reset of a switch ASIC: the per-family strategies, the
    dispatch between them, and the outer flow that brackets the reset with
    events, waits for a trigger and saves and restores the PCI header of a
    SwitchX. Every collaborator (the status register, the reset register
    command, configuration-space accesses, the event handlers, the clock) is
    a script the caller supplies. */
module Reset {
  import opened Kernel
  import opened SystemStatus
  import opened Headers

  /** The device families, by PCI device identifier. */
  datatype Family =
    | SwitchX
    | Spectrum | Spectrum2 | Spectrum3 | Spectrum4
    | SwitchIB | SwitchIB2
    | Quantum | Quantum2 | Quantum3
    | Unsupported
  {
    /** The families reset through the reset register, with the legacy reset
        as fall-back. */
    predicate HasResetRegister() {
      !SwitchX? && !Unsupported?
    }
  }

  /** Compile-time switches: `INCREASED_TIMEOUT`, and `PD_BU` together with
      `QUANTUM3_BU`. */
  datatype Build = Build(increasedTimeout: bool, palladiumQuantum3: bool)

  /** `SX_SW_RESET_TIMEOUT_MSECS`. */
  function SwResetTimeoutMs(b: Build): nat {
    if b.increasedTimeout then 25 * 60 * 1000 else 5 * 1000
  }

  /** `__get_chip_reset_duration`: how long, in milliseconds, to wait for the
      system to be ready around a reset. */
  function ChipResetDuration(f: Family, b: Build): (ms: nat)
    ensures 0 < ms <= 25 * 60 * 1000
    ensures b.palladiumQuantum3 ==> ms == 20 * 60 * 1000
    ensures ms >= 5 * 1000
  {
    if b.palladiumQuantum3 then 20 * 60 * 1000
    else if f.Quantum? || f.Quantum2? || f.Quantum3? then 15 * 1000
    else if f.Spectrum2? || f.Spectrum3? || f.Spectrum4? then 15 * 60 * 1000
    else SwResetTimeoutMs(b)
  }

  /** The legacy reset doubles the duration in a u32; the product never
      wraps. */
  function LegacyBudget(f: Family, b: Build): (ms: nat)
    ensures ms == 2 * ChipResetDuration(f, b)
  {
    (ChipResetDuration(f, b) * 2) % 0x1_0000_0000
  }

  /** How long `__do_legacy_reset` lets the chip settle after hitting reset. */
  function LegacySettleMs(b: Build): nat {
    if b.increasedTimeout then 180000 else 3000
  }

  /** Observable steps of a reset strategy. */
  datatype Step =
    | WaitReady(budgetMs: nat)
    | FlowOn
    | FlowOff
    | SendResetRegister
    | HitLegacyReset(settleMs: nat)
    | PollVendor

  datatype Outcome = Outcome(err: int, steps: seq<Step>)

  /** The value of `dev_sw_rst_flow` after the first `k` steps, starting from
      lowered. */
  function FlowAfter(steps: seq<Step>, k: nat): bool
    requires k <= |steps|
  {
    if k == 0 then false
    else if steps[k - 1].FlowOn? then true
    else if steps[k - 1].FlowOff? then false
    else FlowAfter(steps, k - 1)
  }

  /** The reset-in-progress flag is raised whenever the chip is hit, and it is
      lowered when the strategy returns. */
  predicate FlowDiscipline(steps: seq<Step>) {
    && !FlowAfter(steps, |steps|)
    && forall k :: 0 <= k < |steps| && (steps[k].SendResetRegister? || steps[k].HitLegacyReset?) ==> FlowAfter(steps, k)
  }

  /** The scripts of the reset-register strategy: the poll before the reset,
      what sending the reset register returns, the zero-budget poll right
      after, and the poll for the reset to complete. */
  datatype PrimaryScript = PrimaryScript(before: Poll, mrsr: int, immediate: Poll, after: Poll)
  {
    predicate Possible(budgetMs: nat) {
      before.Possible(budgetMs) && immediate.Possible(0) && after.Possible(budgetMs)
    }
  }

  /** `sdk_sx_reset`: wait until ready, raise the flag, send the reset
      register, check the system is not ready at once (else the reset did not
      take), wait until ready again, and lower the flag on every exit. */
  function PrimaryReset(f: Family, b: Build, s: PrimaryScript): (o: Outcome)
    requires s.Possible(ChipResetDuration(f, b))
    ensures o.err == 0 <==>
      && WaitForSystemReady(s.before, ChipResetDuration(f, b)).err == 0
      && s.mrsr == 0
      && WaitForSystemReady(s.immediate, 0).err == -ETIME
      && WaitForSystemReady(s.after, ChipResetDuration(f, b)).err == 0
    ensures WaitForSystemReady(s.before, ChipResetDuration(f, b)).err != 0 ==>
      o.err == WaitForSystemReady(s.before, ChipResetDuration(f, b)).err && SendResetRegister !in o.steps
    ensures WaitForSystemReady(s.before, ChipResetDuration(f, b)).err == 0 && s.mrsr != 0 ==> o.err == s.mrsr
    ensures
      && WaitForSystemReady(s.before, ChipResetDuration(f, b)).err == 0
      && s.mrsr == 0
      && WaitForSystemReady(s.immediate, 0).err != -ETIME
      ==> o.err == -EFAULT
    ensures
      && WaitForSystemReady(s.before, ChipResetDuration(f, b)).err == 0
      && s.mrsr == 0
      && WaitForSystemReady(s.immediate, 0).err == -ETIME
      ==> o.err == WaitForSystemReady(s.after, ChipResetDuration(f, b)).err
    ensures o.err == 0 ==> SendResetRegister in o.steps
    ensures forall k :: 0 <= k < |o.steps| && o.steps[k].WaitReady? ==>
      o.steps[k].budgetMs in {0, ChipResetDuration(f, b)}
    ensures FlowDiscipline(o.steps)
  {
    var d := ChipResetDuration(f, b);
    if WaitForSystemReady(s.before, d).err != 0 then
      Outcome(WaitForSystemReady(s.before, d).err, [WaitReady(d), FlowOff])
    else if s.mrsr != 0 then
      Outcome(s.mrsr, [WaitReady(d), FlowOn, SendResetRegister, FlowOff])
    else if WaitForSystemReady(s.immediate, 0).err != -ETIME then
      Outcome(-EFAULT, [WaitReady(d), FlowOn, SendResetRegister, WaitReady(0), FlowOff])
    else
      var steps := [WaitReady(d), FlowOn, SendResetRegister, WaitReady(0), WaitReady(d), FlowOff];
      assert FlowAfter(steps, 2) && FlowAfter(steps, 3) && FlowAfter(steps, 4) && FlowAfter(steps, 5);
      Outcome(WaitForSystemReady(s.after, d).err, steps)
  }

  /** `__do_legacy_reset`: map the reset register and write the reset value
      to it, then let the chip settle. */
  function DoLegacyReset(mapped: bool, b: Build): (o: Outcome)
    ensures o.err == 0 <==> mapped
    ensures o.err != 0 ==> o.err == -ENOMEM && o.steps == []
    ensures o.err == 0 ==> o.steps == [HitLegacyReset(LegacySettleMs(b))]
  {
    if !mapped then Outcome(-ENOMEM, []) else Outcome(0, [HitLegacyReset(LegacySettleMs(b))])
  }

  /** The scripts of the legacy strategy: the poll before the reset, whether
      the reset register can be mapped, and the poll after. */
  datatype LegacyScript = LegacyScript(before: Poll, mapped: bool, after: Poll)
  {
    predicate Possible(budgetMs: nat) {
      before.Possible(budgetMs) && after.Possible(budgetMs)
    }
  }

  /** `legacy_reset`: as the reset-register strategy, but hitting the reset
      register directly and waiting twice as long. */
  function LegacyReset(pdevPresent: bool, f: Family, b: Build, s: LegacyScript): (o: Outcome)
    requires s.Possible(LegacyBudget(f, b))
    ensures o.err == 0 <==>
      && pdevPresent
      && WaitForSystemReady(s.before, LegacyBudget(f, b)).err == 0
      && s.mapped
      && WaitForSystemReady(s.after, LegacyBudget(f, b)).err == 0
    ensures !pdevPresent ==> o.err == -ENODEV
    ensures pdevPresent && WaitForSystemReady(s.before, LegacyBudget(f, b)).err != 0 ==>
      o.err == WaitForSystemReady(s.before, LegacyBudget(f, b)).err && HitLegacyReset(LegacySettleMs(b)) !in o.steps
    ensures pdevPresent && WaitForSystemReady(s.before, LegacyBudget(f, b)).err == 0 && !s.mapped ==> o.err == -ENOMEM
    ensures pdevPresent && WaitForSystemReady(s.before, LegacyBudget(f, b)).err == 0 && s.mapped ==>
      o.err == WaitForSystemReady(s.after, LegacyBudget(f, b)).err && HitLegacyReset(LegacySettleMs(b)) in o.steps
    ensures o.err == 0 ==> HitLegacyReset(LegacySettleMs(b)) in o.steps
    ensures forall k :: 0 <= k < |o.steps| && o.steps[k].WaitReady? ==>
      o.steps[k].budgetMs == 2 * ChipResetDuration(f, b)
    ensures FlowDiscipline(o.steps)
  {
    if !pdevPresent then Outcome(-ENODEV, [FlowOff])
    else
      var d := LegacyBudget(f, b);
      if WaitForSystemReady(s.before, d).err != 0 then
        Outcome(WaitForSystemReady(s.before, d).err, [WaitReady(d), FlowOff])
      else
        var hit := DoLegacyReset(s.mapped, b);
        if hit.err != 0 then Outcome(hit.err, [WaitReady(d), FlowOn, FlowOff])
        else
          var steps := [WaitReady(d), FlowOn, HitLegacyReset(LegacySettleMs(b)), WaitReady(d), FlowOff];
          assert FlowAfter(steps, 2) && FlowAfter(steps, 3) && FlowAfter(steps, 4);
          Outcome(WaitForSystemReady(s.after, d).err, steps)
  }

  /** One read of the vendor identifier: its status, and the value it leaves
      in the variable. */
  datatype VendorRead = VendorRead(status: int, value: bv16)

  /** The device answers: the read succeeded and did not return all ones. */
  predicate Answers(r: VendorRead) {
    r.status == 0 && r.value != 0xffff
  }

  datatype VendorSeen = VendorSeen(vendor: bv16, readCount: nat)

  /** The vendor-identifier poll: read until the device answers or the
      deadline passes (the reads that fit are `polls`); the result is the value
      the last read left. */
  function VendorPoll(polls: seq<VendorRead>): (r: VendorSeen)
    requires |polls| >= 1
    ensures 1 <= r.readCount <= |polls|
    ensures r.vendor == polls[r.readCount - 1].value
    ensures forall j :: 0 <= j < r.readCount - 1 ==> !Answers(polls[j])
    ensures r.readCount < |polls| ==> Answers(polls[r.readCount - 1])
    ensures (exists j :: 0 <= j < |polls| && Answers(polls[j])) ==> r.vendor != 0xffff
  {
    var k := FirstWhere(polls, Answers, 0);
    if k < |polls| then VendorSeen(polls[k].value, k + 1) else VendorSeen(polls[|polls| - 1].value, |polls|)
  }

  /** When a failed read leaves all ones, the poll sees a vendor exactly when
      some read in the window got an answer. */
  lemma VendorPollSeesAnswer(polls: seq<VendorRead>)
    requires |polls| >= 1
    requires forall j :: 0 <= j < |polls| && polls[j].status != 0 ==> polls[j].value == 0xffff
    ensures VendorPoll(polls).vendor != 0xffff <==> exists j :: 0 <= j < |polls| && Answers(polls[j])
  {
    var r := VendorPoll(polls);
    if r.vendor != 0xffff {
      assert Answers(polls[r.readCount - 1]);
    }
  }

  /** The scripts of the SwitchX strategy: whether the reset register can be
      mapped, and the vendor reads that fit before the deadline. */
  datatype SwitchXScript = SwitchXScript(mapped: bool, vendor: seq<VendorRead>)

  /** `legacy_reset_SwitchX`: hit the reset register, then poll the vendor
      identifier, the SwitchX having no status register. The flag is not
      touched. */
  function LegacyResetSwitchX(pdevPresent: bool, b: Build, s: SwitchXScript): (o: Outcome)
    requires |s.vendor| >= 1
    ensures o.err == 0 <==> pdevPresent && s.mapped && VendorPoll(s.vendor).vendor != 0xffff
    ensures !pdevPresent ==> o.err == -ENODEV && o.steps == []
    ensures pdevPresent && !s.mapped ==> o.err == -ENOMEM && o.steps == []
    ensures pdevPresent && s.mapped && o.err != 0 ==> o.err == -ENODEV
    ensures FlowOn !in o.steps && FlowOff !in o.steps
  {
    if !pdevPresent then Outcome(-ENODEV, [])
    else
      var hit := DoLegacyReset(s.mapped, b);
      if hit.err != 0 then Outcome(hit.err, [])
      else
        var steps := hit.steps + [PollVendor];
        if VendorPoll(s.vendor).vendor == 0xffff then Outcome(-ENODEV, steps) else Outcome(0, steps)
  }

  datatype ResetScripts = ResetScripts(primary: PrimaryScript, legacy: LegacyScript, switchX: SwitchXScript)
  {
    predicate Possible(f: Family, b: Build) {
      primary.Possible(ChipResetDuration(f, b)) && legacy.Possible(LegacyBudget(f, b)) && |switchX.vendor| >= 1
    }
  }

  datatype Strategy = ResetRegister | Legacy | LegacySwitchX

  datatype SwReset = SwReset(err: int, attempts: seq<Strategy>, steps: seq<Step>)

  /** `perform_dev_sw_reset`: the SwitchX gets its own legacy reset; the
      other supported families try the reset register and fall back to the
      legacy reset once if that fails; anything else is unsupported. */
  function PerformDevSwReset(f: Family, b: Build, s: ResetScripts): (r: SwReset)
    requires s.Possible(f, b)
    ensures f.SwitchX? ==> r.attempts == [LegacySwitchX] && r.err == LegacyResetSwitchX(true, b, s.switchX).err
    ensures f.Unsupported? ==> r.err == -ENODEV && r.attempts == [] && r.steps == []
    ensures f.HasResetRegister() ==>
      (r.attempts == [ResetRegister] <==> PrimaryReset(f, b, s.primary).err == 0)
    ensures f.HasResetRegister() && PrimaryReset(f, b, s.primary).err != 0 ==>
      r.attempts == [ResetRegister, Legacy] && r.err == LegacyReset(true, f, b, s.legacy).err
    ensures f.HasResetRegister() ==>
      r.err == if PrimaryReset(f, b, s.primary).err == 0 then 0 else LegacyReset(true, f, b, s.legacy).err
    ensures r.err == 0 <==>
      || (f.SwitchX? && LegacyResetSwitchX(true, b, s.switchX).err == 0)
      || (f.HasResetRegister() && (PrimaryReset(f, b, s.primary).err == 0 || LegacyReset(true, f, b, s.legacy).err == 0))
    ensures r.err == 0 ==> |r.attempts| > 0
    ensures Legacy in r.attempts ==> r.attempts[0] == ResetRegister && PrimaryReset(f, b, s.primary).err != 0
  {
    match f
    case SwitchX =>
      var o := LegacyResetSwitchX(true, b, s.switchX);
      SwReset(o.err, [LegacySwitchX], o.steps)
    case Unsupported =>
      SwReset(-ENODEV, [], [])
    case _ =>
      var p := PrimaryReset(f, b, s.primary);
      if p.err == 0 then SwReset(0, [ResetRegister], p.steps)
      else
        var l := LegacyReset(true, f, b, s.legacy);
        SwReset(l.err, [ResetRegister, Legacy], p.steps + l.steps)
  }

  /** The flag is lowered when the dispatch returns, whichever strategies
      ran. */
  lemma DispatchFlowLowered(f: Family, b: Build, s: ResetScripts)
    requires s.Possible(f, b)
    ensures !FlowAfter(PerformDevSwReset(f, b, s).steps, |PerformDevSwReset(f, b, s).steps|)
  {
    match f
    case SwitchX =>
      var o := LegacyResetSwitchX(true, b, s.switchX);
      FlowUntouched(o.steps, |o.steps|);
    case Unsupported =>
    case _ =>
      var p := PrimaryReset(f, b, s.primary);
      if p.err != 0 {
        var l := LegacyReset(true, f, b, s.legacy);
        FlowAfterConcat(p.steps, l.steps);
      }
  }

  /** A trace that never raises or lowers the flag leaves it lowered. */
  lemma {:induction false} FlowUntouched(steps: seq<Step>, k: nat)
    requires k <= |steps| && FlowOn !in steps && FlowOff !in steps
    ensures !FlowAfter(steps, k)
  {
    if k > 0 {
      assert steps[k - 1] in steps;
      FlowUntouched(steps, k - 1);
    }
  }

  /** A trace whose second part ends by lowering the flag leaves it
      lowered. */
  lemma FlowAfterConcat(a: seq<Step>, c: seq<Step>)
    requires |c| > 0 && c[|c| - 1].FlowOff?
    ensures !FlowAfter(a + c, |a + c|)
  {
    assert (a + c)[|a + c| - 1] == c[|c| - 1];
  }

  /** `reset_trigger` handling: if the trigger is not already set, wait for
      it; if it is still clear after the wait (`later` is the value read
      then), trigger the reset itself. */
  function TriggerGate(initial: int, later: int): (t: int)
    ensures t != 0
    ensures initial != 0 ==> t == initial
    ensures initial == 0 && later == 0 ==> t == 1
    ensures initial == 0 && later != 0 ==> t == later
  {
    if initial != 0 then initial else if later != 0 then later else 1
  }

  /** Once the trigger is set the gate no longer changes it. */
  lemma TriggerGateIdempotent(initial: int, later: int, again: int)
    ensures TriggerGate(TriggerGate(initial, later), again) == TriggerGate(initial, later)
  {
  }

  datatype Event = PreReset | PostReset(err: int)

  /** Everything `sx_reset` observes besides its argument. */
  datatype Environment = Environment(
    devPresent: bool,
    family: Family,
    build: Build,
    eventAlloc: bool,
    headerAlloc: bool,
    configReads: seq<DwordRead>,
    pcieCap: nat,
    writeStatuses: seq<int>,
    trigger: int,
    triggerLater: int,
    debugFwTraceBootFlow: int,
    preResult: int,
    /** What a POST_RESET handler leaves in the event's error field, if one
        rewrites it; `sx_reset` returns that field. */
    postRewrite: Option<int>,
    scripts: ResetScripts,
    vendorPolls: seq<VendorRead>,
    readyCheck: Poll)
  {
    predicate Possible() {
      && |configReads| == HeaderDwords
      && pcieCap + PciExpLnkCtl < HeadersSize
      && |writeStatuses| == (if pcieCap != 0 then 2 else 0) + 16
      && scripts.Possible(family, build)
      && |vendorPolls| >= 1
      && readyCheck.Possible(0)
    }

    /** The flow gets past its allocations and, on a SwitchX, past saving the
        PCI header. */
    predicate Prepared()
      requires |configReads| == HeaderDwords
    {
      devPresent && eventAlloc && (family.SwitchX? ==> headerAlloc && SaveOk(configReads))
    }

    /** The chip reset, or the readiness check that stands in for it, lets
        the flow go on to the restore. */
    predicate ResetPhaseOk(performChipReset: bool)
      requires Possible()
    {
      if performChipReset then
        && preResult == 0
        && PerformDevSwReset(family, build, scripts).err == 0
        && VendorPoll(vendorPolls).vendor != 0xffff
      else
        debugFwTraceBootFlow != 0 || WaitForSystemReady(readyCheck, 0).err == 0
    }

    /** The PCI header restore, which only a SwitchX performs, succeeds. */
    predicate RestoreOk() {
      family.SwitchX? ==> WritesOk(writeStatuses)
    }
  }

  datatype ResetReport = ResetReport(err: int, events: seq<Event>, trigger: int, writes: seq<ConfigWrite>)
  {
    /** The error the flow itself reached: the one carried by the POST_RESET
        event when the events were sent, before any handler rewrote it. */
    function FlowErr(): (e: int)
      ensures events == [] ==> e == err
    {
      if |events| == 2 && events[1].PostReset? then events[1].err else err
    }
  }

  /** The middle of `sx_reset`: with a chip reset, send PRE_RESET, dispatch
      the reset and poll the vendor identifier; without one, check the system
      is ready unless boot-flow tracing is on. The first failure ends the
      phase with its error. */
  method ResetPhase(env: Environment, performChipReset: bool) returns (err: int)
    requires env.Possible()
    ensures err == 0 <==> env.ResetPhaseOk(performChipReset)
    ensures performChipReset && env.preResult != 0 ==> err == env.preResult
    ensures performChipReset && env.preResult == 0 && PerformDevSwReset(env.family, env.build, env.scripts).err != 0 ==>
      err == PerformDevSwReset(env.family, env.build, env.scripts).err
    ensures
      && performChipReset && env.preResult == 0 && PerformDevSwReset(env.family, env.build, env.scripts).err == 0
      && VendorPoll(env.vendorPolls).vendor == 0xffff
      ==> err == -ENODEV
    ensures !performChipReset && err != 0 ==> err == -ENODEV
  {
    if performChipReset {
      err := env.preResult;
      if err != 0 {
        return;
      }
      err := PerformDevSwReset(env.family, env.build, env.scripts).err;
      if err != 0 {
        return;
      }
      if VendorPoll(env.vendorPolls).vendor == 0xffff {
        err := -ENODEV;
      }
    } else if env.debugFwTraceBootFlow == 0 && WaitForSystemReady(env.readyCheck, 0).err != 0 {
      err := -ENODEV;
    } else {
      err := 0;
    }
  }

  /** `sx_reset`. */
  method SxReset(env: Environment, performChipReset: bool) returns (r: ResetReport)
    requires env.Possible()
    ensures !env.devPresent ==> r.err == -ENODEV
    ensures env.devPresent && !env.eventAlloc ==> r.err == -ENOMEM
    ensures env.devPresent && env.eventAlloc && env.family.SwitchX? && !env.headerAlloc ==> r.err == -ENOMEM
    ensures r.events != [] <==> env.Prepared() && performChipReset
    ensures r.events == [] || (|r.events| == 2 && r.events[0] == PreReset && r.events[1].PostReset?)
    ensures r.events != [] ==>
      r.err == if env.postRewrite.Some? then env.postRewrite.value else r.events[1].err
    ensures r.events != [] && env.preResult != 0 ==> r.events[1].err == env.preResult
    ensures env.Prepared() ==> r.trigger == TriggerGate(env.trigger, env.triggerLater) && r.trigger != 0
    ensures !env.Prepared() ==> r.trigger == env.trigger && r.writes == []
    ensures r.writes != [] ==> env.family.SwitchX?
    ensures
      && env.Prepared() && !performChipReset && env.debugFwTraceBootFlow == 0
      && WaitForSystemReady(env.readyCheck, 0).err != 0
      ==> r.err == -ENODEV && r.writes == []
    ensures r.events != [] && r.events[1].err == 0 ==>
      && env.preResult == 0
      && PerformDevSwReset(env.family, env.build, env.scripts).err == 0
      && VendorPoll(env.vendorPolls).vendor != 0xffff
    ensures r.events == [] && r.err == 0 ==> env.Prepared() && !performChipReset
    ensures
      && env.devPresent && env.eventAlloc && env.family.SwitchX? && env.headerAlloc
      && !SaveOk(env.configReads)
      ==> r.err == -ENODEV && r.events == []
    ensures r.FlowErr() == 0 <==> env.Prepared() && env.ResetPhaseOk(performChipReset) && env.RestoreOk()
    ensures r.events != [] && env.preResult == 0 && PerformDevSwReset(env.family, env.build, env.scripts).err != 0 ==>
      r.FlowErr() == PerformDevSwReset(env.family, env.build, env.scripts).err
    ensures
      && r.events != [] && env.preResult == 0 && PerformDevSwReset(env.family, env.build, env.scripts).err == 0
      && VendorPoll(env.vendorPolls).vendor == 0xffff
      ==> r.FlowErr() == -ENODEV
    ensures env.Prepared() && env.ResetPhaseOk(performChipReset) ==>
      r.FlowErr() == if env.RestoreOk() then 0 else -ENODEV
    ensures !env.ResetPhaseOk(performChipReset) ==> r.writes == []
    ensures env.Prepared() && env.ResetPhaseOk(performChipReset) && env.family.SwitchX? ==>
      && 0 < |r.writes| <= |RestorePlan(SavedHeader(env.configReads), env.pcieCap)|
      && r.writes == RestorePlan(SavedHeader(env.configReads), env.pcieCap)[..|r.writes|]
      && (env.RestoreOk() ==> r.writes == RestorePlan(SavedHeader(env.configReads), env.pcieCap))
      && (!env.RestoreOk() ==> StoppedAtFailure(env.writeStatuses, |r.writes|))
  {
    r := ResetReport(0, [], env.trigger, []);
    if !env.devPresent {
      return r.(err := -ENODEV);
    }
    if !env.eventAlloc {
      return r.(err := -ENOMEM);
    }
    var header: seq<bv32> := seq(HeaderDwords, _ => 0);
    if env.family.SwitchX? {
      if !env.headerAlloc {
        return r.(err := -ENOMEM);
      }
      var saveErr, saved, _ := SaveHeaders(env.configReads);
      if saveErr != 0 {
        return r.(err := saveErr);
      }
      header := saved;
    }
    r := r.(trigger := TriggerGate(env.trigger, env.triggerLater));
    var err := ResetPhase(env, performChipReset);
    if err == 0 && env.family.SwitchX? {
      var restoreErr, done := RestoreHeaders(header, env.pcieCap, env.writeStatuses);
      err := restoreErr;
      r := r.(writes := done);
    }
    r := r.(err := err);
    // PRE_RESET went out whenever a chip reset was asked for, so POST_RESET
    // follows, carrying the flow's error.
    if performChipReset {
      var carried := err;
      var after := if env.postRewrite.Some? then env.postRewrite.value else carried;
      r := r.(err := after, events := [PreReset, PostReset(carried)]);
    }
  }
}

=== FILE: status.dfy ===
/** The system status register and the poller that waits for the firmware
    to report itself ready. */
module SystemStatus {
  import opened Kernel

  const StatusMask: bv32 := 0xFF
  /** The low byte the register holds once the system is up. */
  const SystemEnabled: bv32 := 0x5E

  predicate Ready(val: bv32) {
    val & StatusMask == SystemEnabled
  }

  /** What one call of the poller observes: whether the register could be
      mapped, and the values its successive reads return. How many reads fit
      before the deadline is the clock's business, so it is the length of
      `readings`. */
  datatype Poll = Poll(mapped: bool, readings: seq<bv32>)
  {
    /** The loop reads at least once; with a zero budget the deadline has
        already passed when the loop condition is first evaluated. */
    predicate Possible(budgetMs: nat) {
      |readings| >= 1 && (budgetMs == 0 ==> |readings| == 1)
    }
  }

  datatype Waited = Waited(err: int, readCount: nat)

  /** `__wait_for_system_ready`: read the register until it reports ready,
      sleeping a millisecond between reads, until the budget runs out. */
  function WaitForSystemReady(p: Poll, budgetMs: nat): (r: Waited)
    requires p.Possible(budgetMs)
    ensures r.err in {0, -ENOMEM, -ETIME}
    ensures r.err == -ENOMEM <==> !p.mapped
    ensures !p.mapped ==> r.readCount == 0
    ensures p.mapped ==> 1 <= r.readCount <= |p.readings|
    ensures r.err == 0 <==> p.mapped && exists j :: 0 <= j < |p.readings| && Ready(p.readings[j])
    ensures r.err == 0 ==> Ready(p.readings[r.readCount - 1])
    ensures forall j :: 0 <= j < r.readCount - 1 ==> !Ready(p.readings[j])
    ensures r.err == -ETIME ==> r.readCount == |p.readings|
  {
    if !p.mapped then Waited(-ENOMEM, 0)
    else
      var k := FirstWhere(p.readings, Ready, 0);
      if k < |p.readings| then Waited(0, k + 1) else Waited(-ETIME, |p.readings|)
  }

  /** A poll with a zero budget takes exactly one reading and succeeds iff
      that reading is ready. */
  lemma ZeroBudgetSingleRead(p: Poll)
    requires p.Possible(0) && p.mapped
    ensures WaitForSystemReady(p, 0).readCount == 1
    ensures WaitForSystemReady(p, 0).err == 0 <==> Ready(p.readings[0])
    ensures WaitForSystemReady(p, 0).err != 0 ==> WaitForSystemReady(p, 0).err == -ETIME
  {
  }

  datatype StatusQuery = StatusQuery(err: int, status: Option<bv16>)

  /** `get_system_status`: the low byte of the status register, or an error
      when there is no device, no place for the answer, or no mapping. */
  function GetSystemStatus(devPresent: bool, outPresent: bool, mapped: bool, val: bv32): (r: StatusQuery)
    ensures r.err == 0 <==> devPresent && outPresent && mapped
    ensures r.status.Some? <==> r.err == 0
    ensures !(devPresent && outPresent) ==> r.err == -EINVAL
    ensures devPresent && outPresent && !mapped ==> r.err == -ENOMEM
    ensures r.status.Some? ==> r.status.value < 0x100 && r.status.value as bv32 == val & StatusMask
  {
    if !devPresent || !outPresent then StatusQuery(-EINVAL, None)
    else if !mapped then StatusQuery(-ENOMEM, None)
    else StatusQuery(0, Some((val & StatusMask) as bv16))
  }

  /** The status reported to the caller is the enabled value exactly when
      the poller would accept the same register reading. */
  lemma StatusAgreesWithPoller(val: bv32)
    ensures GetSystemStatus(true, true, true, val).status == Some(SystemEnabled as bv16) <==> Ready(val)
  {
  }
}
